=== FILE: README.md ===
# prober — reconciler, interval resolution and launch expansion in Dafny

prober is a Go service that runs periodic health checks ("probes") against
TCP endpoints, S3 buckets, MySQL hosts, Kafka topics, Redis nodes, Redis
Clusters and HTTP endpoints, reporting each result as a status message and a
Prometheus success/failure counter. A YAML document lists the clusters of each
kind; whenever the document changes, the `ProbeManager` reconciles the running
probes with it.

This project models the logic at the heart of that service as pure Dafny
functions over immutable data, and proves what it guarantees:

- **Durations** (`durations.dfy`): `DurationString.ToDuration`, the chain
  cluster duration → kind default → top-level default → 10 s that every runner
  nests, Go's truncating `Duration.Milliseconds`, and the 100 ms floor.
- **Config** (`config.dfy`): one canonical record type per kind of target, the
  document as seven sections, and `Settings`, the cluster record the manager
  fingerprints.
- **Launch** (`launch.dfy`): each `Run*` runner as a function from a cluster
  record to the `launchProbeWithDuration` calls it makes (`LaunchSpec`: target
  type, cluster, host, interval, probe instance, metric labels).
- **Ticks** (`ticks.dfy`): one tick of a check loop — status `"OK "`/`"ERR"`,
  the message sent, the counter hook fired — and the trace of a loop's life.
- **Manager** (`manager.dfy`): `ProbeManager` as a state record with
  `NewProbeManager`, `startOrUpdateProbe`, the stale-key sweep,
  `LaunchOrUpdateProbes` and `Stop` as state transitions. Cancel functions are
  handle numbers; `cancelled` is the set of handles whose context is done;
  `jobs` remembers the cluster record every handle was started with.
- **ManagerProperties** (`manager_properties.dfy`): the bookkeeping invariant
  `Valid` and what one pass does to each key — keep, restart, start, remove —
  plus minimal restarts and idempotence.
- **ManagerLifecycle** (`manager_lifecycle.dfy`): what the state means for the
  contexts the loops run under — at most one live context per key, none after
  `Stop` or after the parent context is cancelled — then which loops each key
  runs (the launches of its record), the manager's per-key runs
  together equal a direct run of the document — and how defaults and duplicate
  names interact with change detection.

Things outside the configuration become parameters: `time.ParseDuration` is an
uninterpreted `Parser` (`string -> Option<Duration>`, nanoseconds), the
SHA-256-of-JSON fingerprint is an uninterpreted `Hasher`, the
raw `SOURCE_REGION` value is a field of `Env` (labels carry it, or "local"
when it is empty), and whether a MySQL probe
constructor fails on a host is the predicate `Env.mysqlAccepts`.

### Behaviour worth knowing

- The manager gives each key a document holding only that cluster and its
  kind's default (internal/probe/manager.go:91-95); the top-level
  `DefaultDuration` is left empty. So on the manager path the top-level
  default is never consulted (`ManagerLifecycle.GlobalDefaultNeverConsulted`,
  `ManagerLifecycle.ManagerRunsDocumentWithoutGlobalDefault`).
- The fingerprint covers the cluster record only, so changing a default alone
  never restarts a probe: its loops keep the interval they started with
  (`ManagerLifecycle.KindDefaultChangeDoesNotRestart`).
- Keys are `(kind, cluster name)`. When one kind lists two clusters with the
  same name and different content, the two records overwrite each other's
  fingerprint within a pass, and every later pass restarts that key
  (`ManagerLifecycle.DuplicateNameRestartsEveryPass`). Idempotence is therefore
  proved under the premise that records sharing a key share a fingerprint,
  which distinct names within each kind guarantee
  (`ManagerProperties.UniqueNamesCoherent`).
- After `Stop` the root context is done, yet a later `LaunchOrUpdateProbes`
  still fills both maps; every handle it issues has a done context from the
  start (`ManagerLifecycle.NothingLiveAfterStop`).
- On SIGINT or SIGTERM the program only cancels the parent context it gave
  `NewProbeManager` (main.go:34-42); it never calls `Stop`, and its event loop
  has no case for the done context, so the process keeps running. Every
  context is then done while both maps stay full, and every later reload
  refills the maps with handles whose context is already done
  (`Manager.CancelParent`, `ManagerLifecycle.ParentCancelLeavesMapsFull`).
- The Redis and RedisCluster runners apply the kind default twice; this
  resolves exactly like the single chain (`Durations.ResolveDoubled`).
- A missing region is only logged: no launch count in the contracts below
  depends on a region.

### One schema where the sources disagree

The Go files do not type-check together, so the model uses one canonical
record per kind, built from the fields the runners read:

- internal/probe/config.go:23-98 has no TCP or HTTP section, while
  internal/probe/manager.go:91-143 and internal/probe/probe.go:20-56,343-385
  use them; the model has both, with the fields the runners read.
- internal/probe/probe.go:120-128 passes a timeout to the S3 constructors,
  which take none in internal/probe/s3/s3_probe.go; the model keeps the
  timeout in the S3 probe record, as the runner intends.
- The Kafka cluster record has no region in internal/probe/config.go:63-71,
  but internal/probe/probe.go:238 reads one; the model gives it a `region`.
- The MySQL, Redis and RedisCluster cluster records have no region in
  internal/probe/config.go:45-97, but the runners read one; the model gives
  all three a `region`.

## Model

| member | source | states |
|---|---|---|
| `Durations.ToDuration` | internal/probe/config.go:12-21 | an empty or unparsable string yields the supplied default; a parsable one yields the parsed value |
| `Durations.ToDurationIsDefaultOrParsed` | internal/probe/config.go:12-21 | the result is always the default or what the parser returned |
| `Durations.ToDurationIndependentOfDefault` | internal/probe/config.go:16-20 | a parsable string gives the same value whatever default is supplied |
| `Durations.ToDurationIdempotent` | internal/probe/config.go:12-21 | `d.ToDuration(d.ToDuration(x)) == d.ToDuration(x)` |
| `Durations.ChainIsFirstParsable` | internal/probe/probe.go:109-113 | nesting ToDuration calls over any list of levels picks the first level that parses, else the fallback |
| `Durations.ChainRepeatedLevel` | internal/probe/probe.go:319-325 | a level repeated back to back in a chain changes nothing |
| `Durations.Resolve` | internal/probe/probe.go:33-37 | the interval is the cluster's duration if it parses, else the kind default, else the top-level default, else 10 s |
| `Durations.ResolveIsFirstParsable` | internal/probe/probe.go:356-360 | the three-level chain equals the first-parsable reading of [cluster, kind default, top-level default] |
| `Durations.ResolveDoubled` | internal/probe/probe.go:264-270 | the Redis chain with the kind default applied twice resolves exactly like the single chain |
| `Durations.Milliseconds` | internal/probe/probe.go:38 | whole milliseconds truncated toward zero, for negative durations too |
| `Durations.LaunchMillis` | internal/probe/probe.go:38-41 | the launched interval is never below 100 ms; at or above 100 ms it is the whole milliseconds of the duration, below it is exactly 100 |
| `Durations.IntervalMillis` | internal/probe/probe.go:114-117 | resolution followed by the floor never yields less than 100 ms |
| `Launch.SourceRegion` | internal/probe/probe.go:21-24 | the source region is the variable's value, or "local" when it is empty; never empty |
| `Launch.EveryLabelHasSourceRegion` | internal/probe/probe.go:21-24 | every counter label of every loop in a run carries SOURCE_REGION when it is set and "local" otherwise, never an empty region |
| `Launch.TcpLaunches` | internal/probe/probe.go:29-55 | exactly one loop per TCP cluster, target "TCP", host the comma-join of its addresses, the resolved interval, tcp/probe labels; the probe's timeout is the cluster's, 2 s when unset |
| `Launch.S3Launches` | internal/probe/probe.go:118-159 | a write loop iff writes are requested and a read loop iff reads are, write first; both on the endpoint with object key "probe-test-file"; the write probe and the read probe carry the cluster's endpoint, region, access key, secret key, bucket, useSSL and timeout, 1 s when unset |
| `Launch.Accepted` | internal/probe/probe.go:187-192 | the host entries kept are exactly those whose constructor succeeds; all of them when every constructor succeeds |
| `Launch.AcceptedConcat` | internal/probe/probe.go:186-201 | filtering the host list keeps order: the accepted entries of `a + b` are those of `a` followed by those of `b` |
| `Launch.AcceptedCounts` | internal/probe/probe.go:186-201 | an accepted host is kept once per occurrence, duplicates included, and a rejected one never |
| `Launch.MySqlHostLaunches` | internal/probe/probe.go:186-201 | one loop per accepted host entry, in host order, each the probe of that host with the task's query and the mysql labels; none for a rejected entry |
| `Launch.MySqlHostLaunchesHosts` | internal/probe/probe.go:186-201 | every loop of the host loop is on a listed host whose constructor succeeded, with the task's target type and mysql labels, and every such host has a loop |
| `Launch.MySqlLaunches` | internal/probe/probe.go:172-221 | as many loops as accepted read entries (if reads are requested) plus accepted write entries (if writes are); a MYSQL_READ loop on host h iff reads are requested, h is a read host and its constructor succeeds (likewise for writes); reads precede writes |
| `Launch.MySqlLaunchesExact` | internal/probe/probe.go:185-220 | loop i is the read probe of the i-th accepted read host running ReadQuery, and after them loop i is the write probe of the i-th accepted write host running WriteQuery |
| `Launch.KafkaLaunches` | internal/probe/probe.go:225-248 | always one KAFKA_READ then one KAFKA_WRITE loop, host "", no metric hooks; the read loop drives a read probe and the write loop a write probe on the cluster's brokers and topic |
| `Launch.RedisLaunches` | internal/probe/probe.go:260-303 | one loop per node per requested task, node order kept, every read loop before every write loop; each loop's probe is built from its node and the cluster password, and its counters carry redis/read or redis/write with the cluster name and both regions |
| `Launch.RedisClusterLaunches` | internal/probe/probe.go:315-340 | one REDISCLUSTER_READWRITE loop per cluster whatever its tasks, host the comma-join of its nodes, metric op "read"; the probe gets all nodes and the password |
| `Launch.HttpLaunches` | internal/probe/probe.go:352-384 | exactly one HTTP loop per cluster on its endpoint with http/probe labels; the probe carries the cluster's endpoint, method, body, proxy URL, headers, unacceptable status codes, timeout (2 s when unset), skipTLSVerify and region |
| `Launch.Flatten` | internal/probe/probe.go:29 | a section's loops are exactly the loops of its clusters |
| `Launch.EveryLaunchAboveFloor` | internal/probe/probe.go:181-184 | no loop of any kind in a document is launched below 100 ms |
| `Launch.OneLaunchPerCluster` | internal/probe/probe.go:20-56 | TCP, RedisCluster and HTTP sections yield one loop per cluster, in cluster order, with the stated hosts |
| `Launch.KafkaTwoLaunchesPerCluster` | internal/probe/probe.go:224-249 | a Kafka section yields two hook-less loops per cluster |
| `Ticks.Tick` | internal/probe/probe.go:71-91 | a non-nil error gives "ERR" and only a failure increment, nil gives "OK " and only a success increment, nil hooks give none; the message carries target, cluster, host, error and metadata |
| `Ticks.TraceMatchesOutcomes` | internal/probe/probe.go:67-94 | a loop sends one message per check in order and, with hooks, counts one success per nil error and one failure per error |
| `Manager.NewProbeManager` | internal/probe/manager.go:24-32 | the new manager satisfies the invariant and has no handle whose context is live |
| `Manager.StartOrUpdate` | internal/probe/manager.go:54-86 | the state is unchanged iff the stored fingerprint equals the new one; otherwise the old handle is cancelled and a fresh handle with the new fingerprint is stored; other keys are untouched |
| `Manager.Sweep` | internal/probe/manager.go:146-153 | keys not seen in the pass are cancelled and deleted from both maps; seen keys keep handle and fingerprint |
| `Manager.Stop` | internal/probe/manager.go:34-43 | both maps become empty and every handle ever issued is cancelled |
| `ManagerProperties.StartOrUpdateValid` | internal/probe/manager.go:54-86 | one startOrUpdateProbe call keeps the invariant (same key sets, handles live and current) and leaves its key stored |
| `ManagerProperties.StartOrUpdateGrows` | internal/probe/manager.go:66-76 | a call never un-cancels a handle and only replaces a key's handle with a newer one |
| `ManagerProperties.StartAllValid` | internal/probe/manager.go:88-144 | the per-kind loops keep the invariant and add exactly the pass's keys |
| `ManagerProperties.StartAllKeepsUnchanged` | internal/probe/manager.go:60-63 | a key whose records all carry the stored fingerprint keeps its handle, fingerprint and liveness |
| `ManagerProperties.StartAllRestartsChanged` | internal/probe/manager.go:65-76 | a key with a changed record has its old handle cancelled and a handle issued in this pass |
| `ManagerProperties.StartAllLastHash` | internal/probe/manager.go:75-76 | the fingerprint left for a key is that of its last record in the pass |
| `ManagerProperties.SweepValid` | internal/probe/manager.go:147-152 | the stale-key sweep keeps the invariant |
| `ManagerProperties.SweepSparesActive` | internal/probe/manager.go:148 | the sweep does not cancel a live handle of a key seen in the pass |
| `ManagerProperties.DesiredKeys` | internal/probe/manager.go:90-144 | the keys of a pass are exactly the (kind, name) pairs the document lists |
| `ManagerProperties.ReconcileValid` | internal/probe/manager.go:46-154 | LaunchOrUpdateProbes keeps the invariant |
| `ManagerProperties.ReconcileKeys` | internal/probe/manager.go:58 | afterwards both maps hold exactly the document's keys |
| `ManagerProperties.ReconcileHashes` | internal/probe/manager.go:56-57 | afterwards each key's fingerprint is that of its last record in the document |
| `ManagerProperties.ReconcileKeepsUnchanged` | internal/probe/manager.go:61-63 | an unchanged key keeps its identical handle and fingerprint and is not cancelled |
| `ManagerProperties.ReconcileRestartsChanged` | internal/probe/manager.go:66-76 | a changed key's old handle is cancelled and replaced by a never-issued handle carrying the new fingerprint, live unless stopped |
| `ManagerProperties.ReconcileStartsNew` | internal/probe/manager.go:69-76 | a key not held before gets a never-issued handle and the new fingerprint, live unless stopped |
| `ManagerProperties.ReconcileRemovesStale` | internal/probe/manager.go:147-153 | a key the document dropped is cancelled and deleted from both maps |
| `ManagerProperties.ReconcileMinimalRestarts` | internal/probe/manager.go:60-76 | a live stored handle is cancelled iff its key was dropped or one of its records changed |
| `ManagerProperties.StartAllAgreeingIsNoop` | internal/probe/manager.go:61-63 | when every record carries its stored fingerprint the per-kind loops change nothing |
| `ManagerProperties.AgreeingPassIsNoop` | internal/probe/manager.go:60-63 | a pass over the stored keys with the stored fingerprints changes nothing at all |
| `ManagerProperties.ReconcileIdempotent` | internal/probe/manager.go:61-63 | a second pass over the same document changes neither map, issues no handle and cancels nothing |
| `ManagerProperties.UniqueNamesCoherent` | internal/probe/manager.go:55-57 | distinct names within each kind make records sharing a key share a fingerprint |
| `ManagerLifecycle.LiveHandlesAreStored` | internal/probe/manager.go:74-75 | while the root context is live (no Stop, parent not cancelled) the handles with a live context are exactly the stored handles |
| `ManagerLifecycle.AtMostOneLiveHandlePerKey` | internal/probe/manager.go:66-76 | two handles with live contexts started for the same key are the same handle |
| `ManagerLifecycle.StopCancelsEverything` | internal/probe/manager.go:34-43 | Stop keeps the invariant, cancels every stored handle and leaves no handle whose context is live |
| `ManagerLifecycle.RootDonePassStartsNothing` | internal/probe/manager.go:74 | once the root context is done, a pass refills the maps with the document's keys but every handle it issues has a done context |
| `ManagerLifecycle.NothingLiveAfterStop` | internal/probe/manager.go:34-43 | after Stop a pass refills the maps with the document's keys but leaves no handle with a live context |
| `ManagerLifecycle.ParentCancelLeavesMapsFull` | internal/probe/manager.go:24-31 | cancelling the parent context keeps the invariant and every key stored but leaves no live context; Stop afterwards ends where Stop alone would, and a later pass starts no live context |
| `ManagerLifecycle.SingleConfigLoops` | internal/probe/manager.go:91-95 | the runner on a key's single-cluster document launches that record's loops with its kind default and an empty top-level default |
| `ManagerLifecycle.ReconciledLoopsFollowConfig` | internal/probe/manager.go:73-81 | with a collision-free fingerprint, each listed key runs the launches of its last record in the document |
| `ManagerLifecycle.RunAllIsPerEntry` | internal/probe/manager.go:88-144 | running a whole document equals running each of its records on its own, in the manager's kind order |
| `ManagerLifecycle.ManagerRunsDocumentWithoutGlobalDefault` | internal/probe/manager.go:92-94 | the loops the manager starts, key by key, are exactly those of a direct run of the document with its top-level default cleared |
| `ManagerLifecycle.GlobalDefaultNeverConsulted` | internal/probe/manager.go:90-144 | documents differing only in the top-level default reconcile to the same state |
| `ManagerLifecycle.KindDefaultChangeDoesNotRestart` | internal/probe/manager.go:56-63 | after a pass over a document whose records sharing a key share a fingerprint, a document that changes only defaults leaves the state untouched: no restart |
| `ManagerLifecycle.DuplicateNameRestartsEveryPass` | internal/probe/manager.go:55-63 | two same-named TCP clusters with different fingerprints make every pass cancel and replace that key's handle |

## Left out

- Checks after cancellation: a done context closes a loop's ticker, but the ticker sends its first tick at once (internal/probe/probe.go:396-398) and its `select` (internal/probe/probe.go:401-411) may still forward a pending tick after the context is done, so a cancelled loop, including one started after `Stop`, can run one more check, counter hook and status message. "Live" in this model means only that a handle's context is not done.
- Loop-variable capture: the hook closures capture the range variable `cluster` (for example internal/probe/probe.go:48-53); the model gives each loop its own cluster's name and region, which holds for Go 1.22 and later, whose range variables are per iteration. The Go version is not part of this model; under an older Go, a direct run of a multi-cluster section would label every loop with the last cluster. The manager path is unaffected, because each runner call sees a single-cluster document (internal/probe/manager.go:91-95).
- Goroutines, channels and tickers: the check loop (internal/probe/probe.go:68-93), `newTickerWithContext` and its `Stop` (internal/probe/probe.go:388-424) and the per-key status-logging goroutine (internal/probe/manager.go:78-85) are concurrency; a loop is modelled by its `LaunchSpec` and the outcomes its checks produce, cancellation by the set of cancelled handles. Two goroutines never end and are not represented: the ticker's sender blocks for good once its `tick` channel is full and nothing drains it (internal/probe/probe.go:394-399), and the per-key status logger ranges over a channel that is never closed (internal/probe/manager.go:78-85).
- The mutex of `ProbeManager` (internal/probe/manager.go:19, 36-37, 47-48): every transition is modelled as atomic.
- `json.Marshal` and `sha256.Sum256` (internal/probe/manager.go:56-57) are foreign calls, abstracted as a deterministic `Hasher`.
- `time.ParseDuration` is an uninterpreted `Parser`; its grammar is not modelled.
- `time.Duration` is 64-bit in Go; the model uses unbounded integers, so overflow of very large durations is not modelled.
- Log lines, including the missing-region message (internal/probe/probe.go:30-32), are output only and are not modelled.
- The protocol probes (tcp, http, mysql, redis, redis cluster, s3, kafka packages) are network clients; a check's result is an `Outcome` (error or nil, metadata string) supplied from outside, and a MySQL constructor's failure is the parameter `Env.mysqlAccepts`.
- internal/probe/metrics.go (Prometheus counters and its HTTP listener) is reduced to the label tuples a hook increments. Both counters carry two more labels, `source_node_name` and `source_node_ip`, set once from `NODE_NAME` and `NODE_IP` ("local" and "unknown" when unset) in `InitMetrics` (internal/probe/metrics.go:17, 24, 33-41, 51-56); `Labels` drops these two, which are the same for every loop of a process.
- `LoadConfig` (internal/probe/config.go:100-112) is YAML and file I/O; the document is an input datatype.
- main.go (file watching, signals, keep-last-good-config on load errors) and cmd/main.go (which calls a `probe.RunAll` that is not in this code) are process plumbing; `Launch.RunAll` here is only the composition of the seven runners in the manager's kind order.
- The runners read `NODE_NAME` into a local they never use (for example internal/probe/probe.go:25); the node name reaches the counters only through `InitMetrics`, whose two labels `Labels` drops.
- ManagerProperties.ReconcileIdempotent: requires that records sharing a key share a fingerprint, because with two same-named clusters of different content the source is not idempotent (see `ManagerLifecycle.DuplicateNameRestartsEveryPass`).
- ManagerLifecycle.KindDefaultChangeDoesNotRestart: requires, like `ManagerProperties.ReconcileIdempotent`, that records sharing a key share a fingerprint; with two same-named clusters of different content every pass restarts that key, default change or not.
- ManagerLifecycle.ReconciledLoopsFollowConfig: assumes the fingerprint never collides, since SHA-256 collisions are outside the model.

=== FILE: config.dfy ===
/** The configuration document, one canonical record type per kind of
    target. Each record holds exactly the fields the runners read; durations
    are the raw strings of the document (DurationString). */
module Config {

  /** The kinds of target, in the order the manager walks them. */
  datatype Kind = Tcp | S3 | MySql | Kafka | Redis | RedisCluster | Http

  /** Opt-in read and write checks of a cluster. */
  datatype Tasks = Tasks(read: bool, write: bool)

  datatype TcpTarget = TcpTarget(
    name: string, addresses: seq<string>, region: string,
    duration: string, timeout: string)

  datatype S3Target = S3Target(
    name: string, endpoint: string, region: string, accessKey: string,
    secretKey: string, bucket: string, useSSL: bool,
    duration: string, timeout: string, tasks: Tasks)

  datatype MySqlTarget = MySqlTarget(
    name: string, readHosts: seq<string>, writeHosts: seq<string>,
    user: string, password: string, database: string, duration: string,
    readQuery: string, writeQuery: string, tasks: Tasks, region: string)

  datatype KafkaTarget = KafkaTarget(
    name: string, brokers: seq<string>, topic: string, duration: string,
    region: string)

  /** A standalone Redis deployment probed node by node. */
  datatype RedisTarget = RedisTarget(
    name: string, nodes: seq<string>, password: string, duration: string,
    tasks: Tasks, region: string)

  /** A Redis Cluster probed as a whole; its `tasks` are read from the
      document but never consulted. */
  datatype RedisClusterTarget = RedisClusterTarget(
    name: string, nodes: seq<string>, password: string, duration: string,
    tasks: Tasks, region: string)

  datatype HttpTarget = HttpTarget(
    name: string, endpoint: string, httpMethod: string, body: string,
    proxyURL: string, headers: map<string, string>,
    unacceptableStatusCodes: seq<int>, timeout: string,
    skipTLSVerify: bool, region: string, duration: string)

  /** One top-level section: a kind-wide default duration and its clusters. */
  datatype Section<C> = Section(defaultDuration: string, clusters: seq<C>)

  datatype Config = Config(
    defaultDuration: string,
    tcp: Section<TcpTarget>,
    s3: Section<S3Target>,
    mysql: Section<MySqlTarget>,
    kafka: Section<KafkaTarget>,
    redis: Section<RedisTarget>,
    redisCluster: Section<RedisClusterTarget>,
    http: Section<HttpTarget>)

  /** The document with no clusters and no defaults: Go's zero Config. */
  const Empty: Config := Config("", Section("", []), Section("", []), Section("", []),
                                Section("", []), Section("", []), Section("", []), Section("", []))

  /** One cluster record of any kind: what the manager fingerprints. */
  datatype Settings =
    | TcpSettings(tcp: TcpTarget)
    | S3Settings(s3: S3Target)
    | MySqlSettings(mysql: MySqlTarget)
    | KafkaSettings(kafka: KafkaTarget)
    | RedisSettings(redis: RedisTarget)
    | RedisClusterSettings(redisCluster: RedisClusterTarget)
    | HttpSettings(http: HttpTarget)
  {
    function Kind(): Kind
    {
      match this
      case TcpSettings(_) => Tcp
      case S3Settings(_) => S3
      case MySqlSettings(_) => MySql
      case KafkaSettings(_) => Kafka
      case RedisSettings(_) => Redis
      case RedisClusterSettings(_) => RedisCluster
      case HttpSettings(_) => Http
    }

    function Name(): string
    {
      match this
      case TcpSettings(c) => c.name
      case S3Settings(c) => c.name
      case MySqlSettings(c) => c.name
      case KafkaSettings(c) => c.name
      case RedisSettings(c) => c.name
      case RedisClusterSettings(c) => c.name
      case HttpSettings(c) => c.name
    }
  }

  /** The same document with every default duration replaced; the clusters
      are untouched. */
  predicate SameClusters(a: Config, b: Config)
  {
    && a.tcp.clusters == b.tcp.clusters
    && a.s3.clusters == b.s3.clusters
    && a.mysql.clusters == b.mysql.clusters
    && a.kafka.clusters == b.kafka.clusters
    && a.redis.clusters == b.redis.clusters
    && a.redisCluster.clusters == b.redisCluster.clusters
    && a.http.clusters == b.http.clusters
  }
}

=== FILE: durations.dfy ===
/** Interval resolution: DurationString.ToDuration, the inheritance chain
    cluster -> kind default -> top-level default -> 10s, and the 100 ms floor
    every runner applies before launching a check loop. */
module Durations {
  import opened Prelude

  /** Go's time.Duration: a signed count of nanoseconds. */
  type Duration = int

  const Millisecond: Duration := 1_000_000
  const Second: Duration := 1000 * Millisecond

  /** The interval used when no level of the chain supplies a parsable one. */
  const FallbackInterval: Duration := 10 * Second

  /** No check loop is launched with an interval below this many milliseconds. */
  const FloorMillis: int := 100

  /** time.ParseDuration, left uninterpreted: None where Go reports an error. */
  type Parser = string -> Option<Duration>

  /** `d` is a non-empty string the parser accepts. */
  predicate Parses(parse: Parser, d: string)
  {
    d != "" && parse(d).Some?
  }

  /** DurationString.ToDuration: an empty or unparsable string yields the
      supplied default; it never fails. */
  function ToDuration(d: string, fallback: Duration, parse: Parser): (r: Duration)
    ensures d == "" ==> r == fallback
    ensures !Parses(parse, d) ==> r == fallback
    ensures Parses(parse, d) ==> r == parse(d).value
  {
    if d == "" then fallback
    else match parse(d)
      case None => fallback
      case Some(v) => v
  }

  /** The result is always either the default or what the parser produced. */
  lemma ToDurationIsDefaultOrParsed(d: string, fallback: Duration, parse: Parser)
    ensures ToDuration(d, fallback, parse) == fallback
         || (parse(d).Some? && ToDuration(d, fallback, parse) == parse(d).value)
  {
  }

  /** A parsable string's value does not depend on the default it is given. */
  lemma ToDurationIndependentOfDefault(d: string, x: Duration, y: Duration, parse: Parser)
    requires Parses(parse, d)
    ensures ToDuration(d, x, parse) == ToDuration(d, y, parse)
  {
  }

  /** Applying the same string twice is the same as applying it once. */
  lemma ToDurationIdempotent(d: string, x: Duration, parse: Parser)
    ensures ToDuration(d, ToDuration(d, x, parse), parse) == ToDuration(d, x, parse)
  {
  }

  /** The nested ToDuration calls of a chain of levels, innermost last:
      Chain([a, b, c], f) is a.ToDuration(b.ToDuration(c.ToDuration(f))). */
  function Chain(levels: seq<string>, fallback: Duration, parse: Parser): Duration
    decreases |levels|
  {
    if |levels| == 0 then fallback
    else ToDuration(levels[0], Chain(levels[1..], fallback, parse), parse)
  }

  /** Reference reading of the chain: the first level, scanning outward from
      the most specific, that parses; the fallback if none does. */
  function FirstParsable(levels: seq<string>, fallback: Duration, parse: Parser): Duration
    decreases |levels|
  {
    if |levels| == 0 then fallback
    else if Parses(parse, levels[0]) then parse(levels[0]).value
    else FirstParsable(levels[1..], fallback, parse)
  }

  /** Nesting ToDuration calls picks the first parsable level. */
  lemma {:induction false} ChainIsFirstParsable(levels: seq<string>, fallback: Duration, parse: Parser)
    ensures Chain(levels, fallback, parse) == FirstParsable(levels, fallback, parse)
    decreases |levels|
  {
    if |levels| > 0 {
      ChainIsFirstParsable(levels[1..], fallback, parse);
    }
  }

  /** A level repeated back to back contributes nothing beyond its first
      occurrence. */
  lemma {:induction false} ChainRepeatedLevel(front: seq<string>, d: string, back: seq<string>,
                                             fallback: Duration, parse: Parser)
    ensures Chain(front + [d, d] + back, fallback, parse) == Chain(front + [d] + back, fallback, parse)
    decreases |front|
  {
    if |front| == 0 {
      assert front + [d, d] + back == [d] + ([d] + back);
      assert front + [d] + back == [d] + back;
      assert ([d] + ([d] + back))[1..] == [d] + back;
      assert ([d] + back)[1..] == back;
      ToDurationIdempotent(d, Chain(back, fallback, parse), parse);
    } else {
      ChainRepeatedLevel(front[1..], d, back, fallback, parse);
      assert (front + [d, d] + back)[1..] == front[1..] + [d, d] + back;
      assert (front + [d] + back)[1..] == front[1..] + [d] + back;
    }
  }

  /** The interval every runner except Redis and RedisCluster resolves:
      the cluster's duration, else the kind's default, else the top-level
      default, else 10 s. */
  function Resolve(cluster: string, kindDefault: string, global: string, parse: Parser): (r: Duration)
    ensures Parses(parse, cluster) ==> r == parse(cluster).value
    ensures !Parses(parse, cluster) && Parses(parse, kindDefault) ==> r == parse(kindDefault).value
    ensures !Parses(parse, cluster) && !Parses(parse, kindDefault) && Parses(parse, global)
            ==> r == parse(global).value
    ensures !Parses(parse, cluster) && !Parses(parse, kindDefault) && !Parses(parse, global)
            ==> r == FallbackInterval
  {
    ToDuration(cluster, ToDuration(kindDefault, ToDuration(global, FallbackInterval, parse), parse), parse)
  }

  /** Resolve is the three-level chain read as "first parsable level". */
  lemma ResolveIsFirstParsable(cluster: string, kindDefault: string, global: string, parse: Parser)
    ensures Resolve(cluster, kindDefault, global, parse)
         == FirstParsable([cluster, kindDefault, global], FallbackInterval, parse)
  {
    var levels := [cluster, kindDefault, global];
    assert levels[1..] == [kindDefault, global];
    assert levels[1..][1..] == [global];
    assert levels[1..][1..][1..] == [];
    var g := ToDuration(global, FallbackInterval, parse);
    assert Chain(levels[1..][1..], FallbackInterval, parse) == g;
    assert Chain(levels[1..], FallbackInterval, parse) == ToDuration(kindDefault, g, parse);
    assert Resolve(cluster, kindDefault, global, parse) == Chain(levels, FallbackInterval, parse);
    ChainIsFirstParsable(levels, FallbackInterval, parse);
  }

  /** The chain the Redis and RedisCluster runners write, with the kind
      default applied twice; it resolves exactly like the single-level chain. */
  function ResolveDoubled(cluster: string, kindDefault: string, global: string, parse: Parser): (r: Duration)
    ensures r == Resolve(cluster, kindDefault, global, parse)
  {
    ToDuration(cluster,
      ToDuration(kindDefault,
        ToDuration(kindDefault, ToDuration(global, FallbackInterval, parse), parse), parse), parse)
  }

  /** time.Duration.Milliseconds: the count of whole milliseconds, truncated
      toward zero as Go's integer division does. */
  function Milliseconds(d: Duration): (r: int)
    ensures d >= 0 ==> 0 <= r && r * Millisecond <= d < (r + 1) * Millisecond
    ensures d < 0 ==> r <= 0 && (-r) * Millisecond <= -d < (-r + 1) * Millisecond
  {
    if d >= 0 then d / Millisecond else -((-d) / Millisecond)
  }

  /** The launched interval in milliseconds: the whole milliseconds of `d`,
      raised to the 100 ms floor. */
  function LaunchMillis(d: Duration): (r: int)
    ensures r >= FloorMillis
    ensures d >= FloorMillis * Millisecond ==> r * Millisecond <= d < (r + 1) * Millisecond
    ensures d < FloorMillis * Millisecond ==> r == FloorMillis
  {
    var ms := Milliseconds(d);
    if ms < FloorMillis then FloorMillis else ms
  }

  /** Resolution followed by the floor, as every runner launches its loops. */
  function IntervalMillis(cluster: string, kindDefault: string, global: string, parse: Parser): (r: int)
    ensures r >= FloorMillis
  {
    LaunchMillis(Resolve(cluster, kindDefault, global, parse))
  }
}

=== FILE: launch.dfy ===
/** Expansion of a configuration into check loops: the Run* runners decide,
    per cluster record, how many loops are launched, with which target type,
    host string, interval, probe instance and metric labels. */
module Launch {
  import opened Prelude
  import opened Durations
  import opened Config

  datatype Task = ReadTask | WriteTask

  /** Label values of the success and failure counters a loop increments. */
  datatype Labels = Labels(targetType: string, opType: string, name: string,
                           sourceRegion: string, destinationRegion: string)

  /** The probe instance a loop drives, as its constructor built it and the
      runner then completed with the cluster's region. */
  datatype Prober =
    | TcpProber(addresses: seq<string>, timeout: Duration, region: string)
    | S3Prober(task: Task, endpoint: string, region: string, accessKey: string,
               secretKey: string, bucket: string, objectKey: string,
               useSSL: bool, timeout: Duration)
    | MySqlProber(task: Task, host: string, user: string, password: string,
                  database: string, query: string, region: string)
    | KafkaProber(task: Task, brokers: seq<string>, topic: string, region: string)
    | RedisProber(task: Task, node: string, password: string, region: string)
    | RedisClusterProber(addrs: seq<string>, password: string, region: string)
    | HttpProber(endpoint: string, httpMethod: string, body: string, proxyURL: string,
                 headers: map<string, string>, unacceptableStatusCodes: seq<int>,
                 timeout: Duration, skipTLSVerify: bool, region: string)

  /** One launchProbeWithDuration call: a loop ticking every `intervalMs`
      milliseconds. `hooks` is None where the runner passes nil callbacks. */
  datatype LaunchSpec = LaunchSpec(targetType: string, cluster: string, host: string,
                                   intervalMs: int, prober: Prober, hooks: Option<Labels>)

  /** What the runners take from outside the configuration: the duration
      parser, the raw value of the SOURCE_REGION variable ("" when unset),
      and the verdict of the MySQL probe constructors on a host (false where
      the constructor returns an error). */
  datatype Env = Env(parse: Parser, regionVariable: string,
                     mysqlAccepts: (Task, string, MySqlTarget) -> bool)
  {
    /** The source region every metric label of a runner carries. */
    function Region(): string
    {
      SourceRegion(regionVariable)
    }
  }

  /** The SOURCE_REGION lookup with its "local" default. */
  function SourceRegion(variable: string): (r: string)
    ensures r != ""
    ensures variable == "" ==> r == "local"
    ensures variable != "" ==> r == variable
  {
    if variable == "" then "local" else variable
  }

  /** Object the S3 probes write and read. */
  const ObjectKey: string := "probe-test-file"

  /** Default per-check timeouts when a cluster sets none (or an unparsable one). */
  const TcpTimeout: Duration := 2 * Second
  const S3Timeout: Duration := Second
  const HttpTimeout: Duration := 2 * Second

  // ---------------------------------------------------------------- per cluster

  /** RunTCP: one loop per cluster over all of its addresses. */
  function TcpLaunches(c: TcpTarget, kindDefault: string, global: string, env: Env): (r: seq<LaunchSpec>)
    ensures |r| == 1
    ensures r[0].targetType == "TCP" && r[0].cluster == c.name
    ensures r[0].host == Join(c.addresses, ",")
    ensures r[0].intervalMs == IntervalMillis(c.duration, kindDefault, global, env.parse)
    ensures r[0].hooks == Some(Labels("tcp", "probe", c.name, env.Region(), c.region))
    ensures r[0].prober == TcpProber(c.addresses, ToDuration(c.timeout, TcpTimeout, env.parse), c.region)
    ensures c.timeout == "" ==> r[0].prober.timeout == 2 * Second
  {
    var ms := LaunchMillis(Resolve(c.duration, kindDefault, global, env.parse));
    var probe := TcpProber(c.addresses, ToDuration(c.timeout, TcpTimeout, env.parse), c.region);
    [LaunchSpec("TCP", c.name, Join(c.addresses, ","), ms, probe,
                Some(Labels("tcp", "probe", c.name, env.Region(), c.region)))]
  }

  /** RunS3: a write loop iff writes are requested, then a read loop iff reads
      are; both against the endpoint and the fixed object key. */
  function S3Launches(c: S3Target, kindDefault: string, global: string, env: Env): (r: seq<LaunchSpec>)
    ensures |r| == (if c.tasks.write then 1 else 0) + (if c.tasks.read then 1 else 0)
    ensures c.tasks.write ==>
              && r[0].targetType == "S3_WRITE"
              && r[0].prober == S3Prober(WriteTask, c.endpoint, c.region, c.accessKey, c.secretKey, c.bucket,
                                         ObjectKey, c.useSSL, ToDuration(c.timeout, S3Timeout, env.parse))
              && r[0].hooks == Some(Labels("s3", "write", c.name, env.Region(), c.region))
    ensures c.tasks.read ==>
              && r[|r| - 1].targetType == "S3_READ"
              && r[|r| - 1].prober == S3Prober(ReadTask, c.endpoint, c.region, c.accessKey, c.secretKey, c.bucket,
                                               ObjectKey, c.useSSL, ToDuration(c.timeout, S3Timeout, env.parse))
              && r[|r| - 1].hooks == Some(Labels("s3", "read", c.name, env.Region(), c.region))
    ensures forall l | l in r :: && l.cluster == c.name && l.host == c.endpoint
                                 && l.prober.S3Prober? && l.prober.objectKey == ObjectKey
                                 && l.prober.endpoint == c.endpoint && l.prober.bucket == c.bucket
                                 && l.prober.timeout == ToDuration(c.timeout, S3Timeout, env.parse)
                                 && (c.timeout == "" ==> l.prober.timeout == Second)
                                 && l.intervalMs == IntervalMillis(c.duration, kindDefault, global, env.parse)
  {
    var ms := LaunchMillis(Resolve(c.duration, kindDefault, global, env.parse));
    var timeout := ToDuration(c.timeout, S3Timeout, env.parse);
    var writeLoops :=
      if c.tasks.write then
        [LaunchSpec("S3_WRITE", c.name, c.endpoint, ms,
                    S3Prober(WriteTask, c.endpoint, c.region, c.accessKey, c.secretKey, c.bucket,
                             ObjectKey, c.useSSL, timeout),
                    Some(Labels("s3", "write", c.name, env.Region(), c.region)))]
      else [];
    var readLoops :=
      if c.tasks.read then
        [LaunchSpec("S3_READ", c.name, c.endpoint, ms,
                    S3Prober(ReadTask, c.endpoint, c.region, c.accessKey, c.secretKey, c.bucket,
                             ObjectKey, c.useSSL, timeout),
                    Some(Labels("s3", "read", c.name, env.Region(), c.region)))]
      else [];
    writeLoops + readLoops
  }

  function MySqlTargetType(task: Task): string
  {
    match task
    case ReadTask => "MYSQL_READ"
    case WriteTask => "MYSQL_WRITE"
  }

  function TaskLabel(task: Task): string
  {
    match task
    case ReadTask => "read"
    case WriteTask => "write"
  }

  /** Some loop of `r` has target type `targetType` and host `host`. */
  predicate HasLaunch(r: seq<LaunchSpec>, targetType: string, host: string)
  {
    exists l | l in r :: l.targetType == targetType && l.host == host
  }

  /** The hosts, in order, whose probe constructor for `task` succeeds. */
  function Accepted(task: Task, hosts: seq<string>, c: MySqlTarget, env: Env): (r: seq<string>)
    ensures forall h :: h in r <==> h in hosts && env.mysqlAccepts(task, h, c)
    ensures |r| <= |hosts|
    ensures (forall h | h in hosts :: env.mysqlAccepts(task, h, c)) ==> r == hosts
    decreases |hosts|
  {
    if |hosts| == 0 then []
    else if env.mysqlAccepts(task, hosts[0], c) then [hosts[0]] + Accepted(task, hosts[1..], c, env)
    else Accepted(task, hosts[1..], c, env)
  }

  /** Filtering distributes over concatenation: the accepted entries of
      `a + b` are those of `a` followed by those of `b`. With a one-entry
      list giving `[h]` or `[]`, this fixes both order and repetition. */
  lemma {:induction false} AcceptedConcat(task: Task, a: seq<string>, b: seq<string>, c: MySqlTarget, env: Env)
    ensures Accepted(task, a + b, c, env) == Accepted(task, a, c, env) + Accepted(task, b, c, env)
    decreases |a|
  {
    if |a| == 0 {
      assert a + b == b;
    } else {
      assert (a + b)[1..] == a[1..] + b;
      AcceptedConcat(task, a[1..], b, c, env);
    }
  }

  /** An accepted host is kept once per occurrence in the list, and a
      rejected one not at all. */
  lemma {:induction false} AcceptedCounts(task: Task, hosts: seq<string>, c: MySqlTarget, env: Env, h: string)
    ensures multiset(Accepted(task, hosts, c, env))[h]
            == if env.mysqlAccepts(task, h, c) then multiset(hosts)[h] else 0
    decreases |hosts|
  {
    if |hosts| != 0 {
      assert hosts == [hosts[0]] + hosts[1..];
      AcceptedCounts(task, hosts[1..], c, env, h);
    }
  }

  /** The hosts RunMySQL launches `task` loops on: the accepted ones if the
      task is requested, none otherwise. */
  function TaskHosts(task: Task, wanted: bool, hosts: seq<string>, c: MySqlTarget, env: Env): seq<string>
  {
    if wanted then Accepted(task, hosts, c, env) else []
  }

  /** The query a MySQL probe for `task` runs. */
  function MySqlQuery(task: Task, c: MySqlTarget): string
  {
    match task
    case ReadTask => c.readQuery
    case WriteTask => c.writeQuery
  }

  /** The loop RunMySQL launches for `task` on `host`. */
  function MySqlLaunch(task: Task, host: string, c: MySqlTarget, ms: int, env: Env): LaunchSpec
  {
    LaunchSpec(MySqlTargetType(task), c.name, host, ms,
               MySqlProber(task, host, c.user, c.password, c.database, MySqlQuery(task, c), c.region),
               Some(Labels("mysql", TaskLabel(task), c.name, env.Region(), c.region)))
  }

  /** The inner host loop of RunMySQL: one loop per host entry, in order,
      skipping exactly the entries whose probe constructor fails. */
  function MySqlHostLaunches(hosts: seq<string>, task: Task, c: MySqlTarget, ms: int, env: Env)
    : (r: seq<LaunchSpec>)
    ensures |r| == |Accepted(task, hosts, c, env)|
    ensures forall i | 0 <= i < |r| :: r[i] == MySqlLaunch(task, Accepted(task, hosts, c, env)[i], c, ms, env)
    ensures (forall h | h in hosts :: env.mysqlAccepts(task, h, c)) ==> |r| == |hosts|
    decreases |hosts|
  {
    if |hosts| == 0 then []
    else
      var host := hosts[0];
      var rest := MySqlHostLaunches(hosts[1..], task, c, ms, env);
      if !env.mysqlAccepts(task, host, c) then rest
      else [MySqlLaunch(task, host, c, ms, env)] + rest
  }

  /** The loops of the host loop are on accepted hosts only, and every
      accepted host has its loop. */
  lemma MySqlHostLaunchesHosts(hosts: seq<string>, task: Task, c: MySqlTarget, ms: int, env: Env)
    ensures var r := MySqlHostLaunches(hosts, task, c, ms, env);
            forall l | l in r :: && l.host in hosts && env.mysqlAccepts(task, l.host, c)
                                 && l.targetType == MySqlTargetType(task)
                                 && l.cluster == c.name && l.intervalMs == ms
                                 && l.hooks == Some(Labels("mysql", TaskLabel(task), c.name, env.Region(), c.region))
    ensures var r := MySqlHostLaunches(hosts, task, c, ms, env);
            forall h | h in hosts && env.mysqlAccepts(task, h, c) :: HasLaunch(r, MySqlTargetType(task), h)
  {
    var r := MySqlHostLaunches(hosts, task, c, ms, env);
    var ok := Accepted(task, hosts, c, env);
    forall l | l in r
      ensures && l.host in hosts && env.mysqlAccepts(task, l.host, c)
              && l.targetType == MySqlTargetType(task)
              && l.cluster == c.name && l.intervalMs == ms
              && l.hooks == Some(Labels("mysql", TaskLabel(task), c.name, env.Region(), c.region))
    {
      var i :| 0 <= i < |r| && r[i] == l;
      assert l.host == ok[i] && ok[i] in ok;
    }
    forall h | h in hosts && env.mysqlAccepts(task, h, c) ensures HasLaunch(r, MySqlTargetType(task), h) {
      var i :| 0 <= i < |ok| && ok[i] == h;
      assert r[i] in r && r[i].host == h;
    }
  }

  /** One task's block of RunMySQL: nothing unless the task is requested
      (and hosts are listed), otherwise one loop per accepted host entry. */
  function MySqlTaskLaunches(hosts: seq<string>, wanted: bool, task: Task, c: MySqlTarget, ms: int, env: Env)
    : (r: seq<LaunchSpec>)
    ensures |r| == |TaskHosts(task, wanted, hosts, c, env)|
    ensures forall i | 0 <= i < |r| :: r[i] == MySqlLaunch(task, TaskHosts(task, wanted, hosts, c, env)[i], c, ms, env)
    ensures forall l | l in r :: && l.targetType == MySqlTargetType(task)
                                 && l.cluster == c.name && l.intervalMs == ms
    ensures forall h :: HasLaunch(r, MySqlTargetType(task), h)
                        <==> wanted && h in hosts && env.mysqlAccepts(task, h, c)
  {
    MySqlHostLaunchesHosts(hosts, task, c, ms, env);
    if |hosts| > 0 && wanted then MySqlHostLaunches(hosts, task, c, ms, env) else []
  }

  /** RunMySQL: the read loops (iff reads are requested) before the write
      loops (iff writes are requested): one loop per accepted host entry, in
      host order, each probe running the query of its task. */
  function MySqlLaunches(c: MySqlTarget, kindDefault: string, global: string, env: Env): (r: seq<LaunchSpec>)
    ensures |r| == |TaskHosts(ReadTask, c.tasks.read, c.readHosts, c, env)|
                   + |TaskHosts(WriteTask, c.tasks.write, c.writeHosts, c, env)|
    ensures forall h :: HasLaunch(r, "MYSQL_READ", h)
                        <==> c.tasks.read && h in c.readHosts && env.mysqlAccepts(ReadTask, h, c)
    ensures forall h :: HasLaunch(r, "MYSQL_WRITE", h)
                        <==> c.tasks.write && h in c.writeHosts && env.mysqlAccepts(WriteTask, h, c)
    ensures forall l | l in r :: && (l.targetType == "MYSQL_READ" || l.targetType == "MYSQL_WRITE")
                                 && l.cluster == c.name
                                 && l.intervalMs == IntervalMillis(c.duration, kindDefault, global, env.parse)
    ensures forall i, j | 0 <= i < j < |r| :: r[i].targetType == "MYSQL_WRITE" ==> r[j].targetType == "MYSQL_WRITE"
  {
    var ms := IntervalMillis(c.duration, kindDefault, global, env.parse);
    var readLoops := MySqlTaskLaunches(c.readHosts, c.tasks.read, ReadTask, c, ms, env);
    var writeLoops := MySqlTaskLaunches(c.writeHosts, c.tasks.write, WriteTask, c, ms, env);
    HasLaunchConcat(readLoops, writeLoops, "MYSQL_READ", "MYSQL_WRITE");
    HasLaunchConcat(writeLoops, readLoops, "MYSQL_WRITE", "MYSQL_READ");
    readLoops + writeLoops
  }

  /** RunMySQL loop by loop: one read loop per accepted read host, in host
      order, then one write loop per accepted write host, each probe running
      the query of its task. */
  lemma MySqlLaunchesExact(c: MySqlTarget, kindDefault: string, global: string, env: Env)
    ensures var r := MySqlLaunches(c, kindDefault, global, env);
            var ms := IntervalMillis(c.duration, kindDefault, global, env.parse);
            var readOk := TaskHosts(ReadTask, c.tasks.read, c.readHosts, c, env);
            forall i | 0 <= i < |readOk| :: r[i] == MySqlLaunch(ReadTask, readOk[i], c, ms, env)
    ensures var r := MySqlLaunches(c, kindDefault, global, env);
            var ms := IntervalMillis(c.duration, kindDefault, global, env.parse);
            var readOk := TaskHosts(ReadTask, c.tasks.read, c.readHosts, c, env);
            var writeOk := TaskHosts(WriteTask, c.tasks.write, c.writeHosts, c, env);
            forall i | 0 <= i < |writeOk| :: r[|readOk| + i] == MySqlLaunch(WriteTask, writeOk[i], c, ms, env)
  {
    MySqlReadLoops(c, kindDefault, global, env);
    MySqlWriteLoops(c, kindDefault, global, env);
  }

  lemma MySqlReadLoops(c: MySqlTarget, kindDefault: string, global: string, env: Env)
    ensures var r := MySqlLaunches(c, kindDefault, global, env);
            var ms := IntervalMillis(c.duration, kindDefault, global, env.parse);
            var readOk := TaskHosts(ReadTask, c.tasks.read, c.readHosts, c, env);
            forall i | 0 <= i < |readOk| :: r[i] == MySqlLaunch(ReadTask, readOk[i], c, ms, env)
  {
    var ms := IntervalMillis(c.duration, kindDefault, global, env.parse);
    var readLoops := MySqlTaskLaunches(c.readHosts, c.tasks.read, ReadTask, c, ms, env);
    var writeLoops := MySqlTaskLaunches(c.writeHosts, c.tasks.write, WriteTask, c, ms, env);
    MySqlLaunchesSplit(c, kindDefault, global, env);
    ConcatIndices(readLoops, writeLoops);
  }

  lemma MySqlWriteLoops(c: MySqlTarget, kindDefault: string, global: string, env: Env)
    ensures var r := MySqlLaunches(c, kindDefault, global, env);
            var ms := IntervalMillis(c.duration, kindDefault, global, env.parse);
            var readOk := TaskHosts(ReadTask, c.tasks.read, c.readHosts, c, env);
            var writeOk := TaskHosts(WriteTask, c.tasks.write, c.writeHosts, c, env);
            forall i | 0 <= i < |writeOk| :: r[|readOk| + i] == MySqlLaunch(WriteTask, writeOk[i], c, ms, env)
  {
    var ms := IntervalMillis(c.duration, kindDefault, global, env.parse);
    var readLoops := MySqlTaskLaunches(c.readHosts, c.tasks.read, ReadTask, c, ms, env);
    var writeLoops := MySqlTaskLaunches(c.writeHosts, c.tasks.write, WriteTask, c, ms, env);
    MySqlLaunchesSplit(c, kindDefault, global, env);
    ConcatIndices(readLoops, writeLoops);
  }

  lemma MySqlLaunchesSplit(c: MySqlTarget, kindDefault: string, global: string, env: Env)
    ensures var ms := IntervalMillis(c.duration, kindDefault, global, env.parse);
            MySqlLaunches(c, kindDefault, global, env)
            == MySqlTaskLaunches(c.readHosts, c.tasks.read, ReadTask, c, ms, env)
               + MySqlTaskLaunches(c.writeHosts, c.tasks.write, WriteTask, c, ms, env)
  {
  }

  lemma ConcatIndices<T>(a: seq<T>, b: seq<T>)
    ensures forall i | 0 <= i < |a| :: (a + b)[i] == a[i]
    ensures forall i | 0 <= i < |b| :: (a + b)[|a| + i] == b[i]
  {
  }

  /** Concatenating loops of another target type adds no loop of type `t`. */
  lemma HasLaunchConcat(a: seq<LaunchSpec>, b: seq<LaunchSpec>, t: string, other: string)
    requires t != other
    requires forall l | l in b :: l.targetType == other
    ensures forall h :: HasLaunch(a + b, t, h) <==> HasLaunch(a, t, h)
    ensures forall h :: HasLaunch(b + a, t, h) <==> HasLaunch(a, t, h)
  {
    forall h | HasLaunch(a + b, t, h) ensures HasLaunch(a, t, h) {
      var l :| l in a + b && l.targetType == t && l.host == h;
    }
    forall h | HasLaunch(b + a, t, h) ensures HasLaunch(a, t, h) {
      var l :| l in b + a && l.targetType == t && l.host == h;
    }
  }

  /** RunKafka: always one read loop and one write loop, with an empty host
      and no metric hooks. */
  function KafkaLaunches(c: KafkaTarget, kindDefault: string, global: string, env: Env): (r: seq<LaunchSpec>)
    ensures |r| == 2
    ensures r[0].targetType == "KAFKA_READ" && r[1].targetType == "KAFKA_WRITE"
    ensures r[0].prober == KafkaProber(ReadTask, c.brokers, c.topic, c.region)
    ensures r[1].prober == KafkaProber(WriteTask, c.brokers, c.topic, c.region)
    ensures forall l | l in r :: && l.cluster == c.name && l.host == "" && l.hooks.None?
                                 && l.intervalMs == IntervalMillis(c.duration, kindDefault, global, env.parse)
  {
    var ms := LaunchMillis(Resolve(c.duration, kindDefault, global, env.parse));
    [LaunchSpec("KAFKA_READ", c.name, "", ms, KafkaProber(ReadTask, c.brokers, c.topic, c.region), None),
     LaunchSpec("KAFKA_WRITE", c.name, "", ms, KafkaProber(WriteTask, c.brokers, c.topic, c.region), None)]
  }

  /** The loops of one Redis task: one per node, in node order. */
  function RedisNodeLaunches(c: RedisTarget, task: Task, ms: int, env: Env): (r: seq<LaunchSpec>)
    ensures |r| == |c.nodes|
    ensures forall i | 0 <= i < |c.nodes| ::
              && r[i].host == c.nodes[i] && r[i].cluster == c.name && r[i].intervalMs == ms
              && r[i].targetType == (if task == ReadTask then "REDIS_READ" else "REDIS_WRITE")
              && r[i].prober == RedisProber(task, c.nodes[i], c.password, c.region)
              && r[i].hooks == Some(Labels("redis", TaskLabel(task), c.name, env.Region(), c.region))
  {
    var targetType := match task case ReadTask => "REDIS_READ" case WriteTask => "REDIS_WRITE";
    seq(|c.nodes|, i requires 0 <= i < |c.nodes| =>
      LaunchSpec(targetType, c.name, c.nodes[i], ms, RedisProber(task, c.nodes[i], c.password, c.region),
                 Some(Labels("redis", TaskLabel(task), c.name, env.Region(), c.region))))
  }

  /** RunRedis: one loop per node per requested task, every read loop before
      every write loop. Its doubled chain resolves like the others. */
  function RedisLaunches(c: RedisTarget, kindDefault: string, global: string, env: Env): (r: seq<LaunchSpec>)
    ensures |r| == (if c.tasks.read then |c.nodes| else 0) + (if c.tasks.write then |c.nodes| else 0)
    ensures c.tasks.read ==> forall i | 0 <= i < |c.nodes| ::
              && r[i].targetType == "REDIS_READ" && r[i].host == c.nodes[i]
              && r[i].prober == RedisProber(ReadTask, c.nodes[i], c.password, c.region)
              && r[i].hooks == Some(Labels("redis", "read", c.name, env.Region(), c.region))
    ensures var offset := if c.tasks.read then |c.nodes| else 0;
            c.tasks.write ==> forall i | 0 <= i < |c.nodes| ::
              && r[offset + i].targetType == "REDIS_WRITE" && r[offset + i].host == c.nodes[i]
              && r[offset + i].prober == RedisProber(WriteTask, c.nodes[i], c.password, c.region)
              && r[offset + i].hooks == Some(Labels("redis", "write", c.name, env.Region(), c.region))
    ensures forall l | l in r :: && l.cluster == c.name
                                 && l.intervalMs == IntervalMillis(c.duration, kindDefault, global, env.parse)
  {
    var ms := LaunchMillis(ResolveDoubled(c.duration, kindDefault, global, env.parse));
    var readLoops := if c.tasks.read then RedisNodeLaunches(c, ReadTask, ms, env) else [];
    var writeLoops := if c.tasks.write then RedisNodeLaunches(c, WriteTask, ms, env) else [];
    readLoops + writeLoops
  }

  /** RunRedisCluster: one loop over all nodes whatever the tasks say. */
  function RedisClusterLaunches(c: RedisClusterTarget, kindDefault: string, global: string, env: Env)
    : (r: seq<LaunchSpec>)
    ensures |r| == 1
    ensures r[0].targetType == "REDISCLUSTER_READWRITE" && r[0].cluster == c.name
    ensures r[0].host == Join(c.nodes, ",")
    ensures r[0].intervalMs == IntervalMillis(c.duration, kindDefault, global, env.parse)
    ensures r[0].hooks == Some(Labels("redisCluster", "read", c.name, env.Region(), c.region))
    ensures r[0].prober == RedisClusterProber(c.nodes, c.password, c.region)
  {
    var ms := LaunchMillis(ResolveDoubled(c.duration, kindDefault, global, env.parse));
    [LaunchSpec("REDISCLUSTER_READWRITE", c.name, Join(c.nodes, ","), ms,
                RedisClusterProber(c.nodes, c.password, c.region),
                Some(Labels("redisCluster", "read", c.name, env.Region(), c.region)))]
  }

  /** RunHTTP: one loop per cluster against its endpoint. */
  function HttpLaunches(c: HttpTarget, kindDefault: string, global: string, env: Env): (r: seq<LaunchSpec>)
    ensures |r| == 1
    ensures r[0].targetType == "HTTP" && r[0].cluster == c.name && r[0].host == c.endpoint
    ensures r[0].intervalMs == IntervalMillis(c.duration, kindDefault, global, env.parse)
    ensures r[0].hooks == Some(Labels("http", "probe", c.name, env.Region(), c.region))
    ensures r[0].prober == HttpProber(c.endpoint, c.httpMethod, c.body, c.proxyURL, c.headers,
                                      c.unacceptableStatusCodes, ToDuration(c.timeout, HttpTimeout, env.parse),
                                      c.skipTLSVerify, c.region)
    ensures c.timeout == "" ==> r[0].prober.timeout == 2 * Second
  {
    var ms := LaunchMillis(Resolve(c.duration, kindDefault, global, env.parse));
    var probe := HttpProber(c.endpoint, c.httpMethod, c.body, c.proxyURL, c.headers, c.unacceptableStatusCodes,
                            ToDuration(c.timeout, HttpTimeout, env.parse), c.skipTLSVerify, c.region);
    [LaunchSpec("HTTP", c.name, c.endpoint, ms, probe,
                Some(Labels("http", "probe", c.name, env.Region(), c.region)))]
  }

  /** A Redis record expands through RunRedis. */
  lemma RedisSettingsLaunches(c: RedisTarget, kindDefault: string, global: string, env: Env)
    ensures SettingsLaunches(RedisSettings(c), kindDefault, global, env) == RedisLaunches(c, kindDefault, global, env)
  {
  }

  /** The loops of one cluster record of any kind. */
  function SettingsLaunches(st: Settings, kindDefault: string, global: string, env: Env): seq<LaunchSpec>
  {
    match st
    case TcpSettings(c) => TcpLaunches(c, kindDefault, global, env)
    case S3Settings(c) => S3Launches(c, kindDefault, global, env)
    case MySqlSettings(c) => MySqlLaunches(c, kindDefault, global, env)
    case KafkaSettings(c) => KafkaLaunches(c, kindDefault, global, env)
    case RedisSettings(c) => RedisLaunches(c, kindDefault, global, env)
    case RedisClusterSettings(c) => RedisClusterLaunches(c, kindDefault, global, env)
    case HttpSettings(c) => HttpLaunches(c, kindDefault, global, env)
  }

  // ---------------------------------------------------------------- per section

  /** The loops of every cluster of a section, cluster by cluster in order. */
  function Flatten<C>(cs: seq<C>, f: C -> seq<LaunchSpec>): (r: seq<LaunchSpec>)
    ensures forall l :: l in r <==> exists i | 0 <= i < |cs| :: l in f(cs[i])
    decreases |cs|
  {
    if |cs| == 0 then []
    else
      var rest := Flatten(cs[1..], f);
      assert forall i | 1 <= i < |cs| :: cs[i] == cs[1..][i - 1];
      f(cs[0]) + rest
  }

  /** Where each cluster yields exactly one loop, the section yields one loop
      per cluster, in cluster order. */
  lemma {:induction false} FlattenSingletons<C>(cs: seq<C>, f: C -> seq<LaunchSpec>)
    requires forall c :: |f(c)| == 1
    ensures |Flatten(cs, f)| == |cs|
    ensures forall i | 0 <= i < |cs| :: Flatten(cs, f)[i] == f(cs[i])[0]
    decreases |cs|
  {
    if |cs| > 0 {
      FlattenSingletons(cs[1..], f);
      assert Flatten(cs, f) == f(cs[0]) + Flatten(cs[1..], f);
      forall i | 1 <= i < |cs|
        ensures Flatten(cs, f)[i] == f(cs[i])[0]
      {
        assert cs[i] == cs[1..][i - 1];
      }
    }
  }

  function RunTcp(cfg: Config, env: Env): seq<LaunchSpec>
  {
    Flatten(cfg.tcp.clusters, c => TcpLaunches(c, cfg.tcp.defaultDuration, cfg.defaultDuration, env))
  }

  function RunS3(cfg: Config, env: Env): seq<LaunchSpec>
  {
    Flatten(cfg.s3.clusters, c => S3Launches(c, cfg.s3.defaultDuration, cfg.defaultDuration, env))
  }

  function RunMySql(cfg: Config, env: Env): seq<LaunchSpec>
  {
    Flatten(cfg.mysql.clusters, c => MySqlLaunches(c, cfg.mysql.defaultDuration, cfg.defaultDuration, env))
  }

  function RunKafka(cfg: Config, env: Env): seq<LaunchSpec>
  {
    Flatten(cfg.kafka.clusters, c => KafkaLaunches(c, cfg.kafka.defaultDuration, cfg.defaultDuration, env))
  }

  function RunRedis(cfg: Config, env: Env): seq<LaunchSpec>
  {
    Flatten(cfg.redis.clusters, c => RedisLaunches(c, cfg.redis.defaultDuration, cfg.defaultDuration, env))
  }

  function RunRedisCluster(cfg: Config, env: Env): seq<LaunchSpec>
  {
    Flatten(cfg.redisCluster.clusters,
            c => RedisClusterLaunches(c, cfg.redisCluster.defaultDuration, cfg.defaultDuration, env))
  }

  function RunHttp(cfg: Config, env: Env): seq<LaunchSpec>
  {
    Flatten(cfg.http.clusters, c => HttpLaunches(c, cfg.http.defaultDuration, cfg.defaultDuration, env))
  }

  /** Every runner over one document, in the order the manager walks the kinds. */
  function RunAll(cfg: Config, env: Env): seq<LaunchSpec>
  {
    RunTcp(cfg, env) + RunS3(cfg, env) + RunMySql(cfg, env) + RunKafka(cfg, env)
    + RunRedis(cfg, env) + RunRedisCluster(cfg, env) + RunHttp(cfg, env)
  }

  /** No loop of any kind is launched with an interval under the floor. */
  lemma EveryLaunchAboveFloor(cfg: Config, env: Env)
    ensures forall l | l in RunAll(cfg, env) :: l.intervalMs >= FloorMillis
  {
    FlattenAboveFloor(cfg.tcp.clusters, c => TcpLaunches(c, cfg.tcp.defaultDuration, cfg.defaultDuration, env));
    FlattenAboveFloor(cfg.s3.clusters, c => S3Launches(c, cfg.s3.defaultDuration, cfg.defaultDuration, env));
    FlattenAboveFloor(cfg.mysql.clusters, c => MySqlLaunches(c, cfg.mysql.defaultDuration, cfg.defaultDuration, env));
    FlattenAboveFloor(cfg.kafka.clusters, c => KafkaLaunches(c, cfg.kafka.defaultDuration, cfg.defaultDuration, env));
    FlattenAboveFloor(cfg.redis.clusters, c => RedisLaunches(c, cfg.redis.defaultDuration, cfg.defaultDuration, env));
    FlattenAboveFloor(cfg.redisCluster.clusters, c => RedisClusterLaunches(c, cfg.redisCluster.defaultDuration, cfg.defaultDuration, env));
    FlattenAboveFloor(cfg.http.clusters, c => HttpLaunches(c, cfg.http.defaultDuration, cfg.defaultDuration, env));
  }

  lemma FlattenAboveFloor<C>(cs: seq<C>, f: C -> seq<LaunchSpec>)
    requires forall c, l | l in f(c) :: l.intervalMs >= FloorMillis
    ensures forall l | l in Flatten(cs, f) :: l.intervalMs >= FloorMillis
  {
  }

  /** A loop's counters, if it has any, carry `region` as source region. */
  predicate LabelledFrom(l: LaunchSpec, region: string)
  {
    l.hooks.Some? ==> l.hooks.value.sourceRegion == region
  }

  /** Every loop of one cluster record labels its counters with the resolved
      source region. */
  lemma SettingsLaunchesLabelled(st: Settings, kindDefault: string, global: string, env: Env)
    ensures forall l | l in SettingsLaunches(st, kindDefault, global, env) :: LabelledFrom(l, env.Region())
  {
    match st
    case MySqlSettings(c) => MySqlLaunchesLabelled(c, kindDefault, global, env);
    case S3Settings(c) => S3LaunchesLabelled(c, kindDefault, global, env);
    case RedisSettings(c) => RedisLaunchesLabelled(c, kindDefault, global, env);
    case _ =>
  }

  lemma MySqlLaunchesLabelled(c: MySqlTarget, kindDefault: string, global: string, env: Env)
    ensures forall l | l in MySqlLaunches(c, kindDefault, global, env) :: LabelledFrom(l, env.Region())
  {
    var r := MySqlLaunches(c, kindDefault, global, env);
    var readOk := TaskHosts(ReadTask, c.tasks.read, c.readHosts, c, env);
    MySqlLaunchesExact(c, kindDefault, global, env);
    forall i | 0 <= i < |r| ensures LabelledFrom(r[i], env.Region()) {
      if i >= |readOk| {
        assert r[|readOk| + (i - |readOk|)] == r[i];
      }
    }
  }

  lemma S3LaunchesLabelled(c: S3Target, kindDefault: string, global: string, env: Env)
    ensures forall l | l in S3Launches(c, kindDefault, global, env) :: LabelledFrom(l, env.Region())
  {
    var r := S3Launches(c, kindDefault, global, env);
    forall i | 0 <= i < |r| ensures LabelledFrom(r[i], env.Region()) {
      assert i == 0 || i == |r| - 1;
    }
  }

  lemma RedisLaunchesLabelled(c: RedisTarget, kindDefault: string, global: string, env: Env)
    ensures forall l | l in RedisLaunches(c, kindDefault, global, env) :: LabelledFrom(l, env.Region())
  {
    var r := RedisLaunches(c, kindDefault, global, env);
    var offset := if c.tasks.read then |c.nodes| else 0;
    forall i | 0 <= i < |r| ensures LabelledFrom(r[i], env.Region()) {
      if i >= offset {
        assert r[offset + (i - offset)] == r[i];
      }
    }
  }

  lemma FlattenLabelled<C>(cs: seq<C>, f: C -> seq<LaunchSpec>, region: string)
    requires forall c, l | l in f(c) :: LabelledFrom(l, region)
    ensures forall l | l in Flatten(cs, f) :: LabelledFrom(l, region)
  {
  }

  /** Whatever SOURCE_REGION holds, every counter of every loop of a run is
      labelled with a non-empty source region: the variable's value when it
      is set, "local" otherwise. */
  lemma EveryLabelHasSourceRegion(cfg: Config, env: Env)
    ensures forall l | l in RunAll(cfg, env) && l.hooks.Some? ::
              && l.hooks.value.sourceRegion != ""
              && l.hooks.value.sourceRegion == (if env.regionVariable == "" then "local" else env.regionVariable)
  {
    TcpLabelled(cfg, env);
    S3Labelled(cfg, env);
    MySqlLabelled(cfg, env);
    KafkaLabelled(cfg, env);
    RedisLabelled(cfg, env);
    RedisClusterLabelled(cfg, env);
    HttpLabelled(cfg, env);
    forall l | l in RunAll(cfg, env) ensures LabelledFrom(l, env.Region()) {
      RunAllMembers(cfg, env, l);
    }
  }

  /** A loop of a run is a loop of one of the seven runners. */
  lemma RunAllMembers(cfg: Config, env: Env, l: LaunchSpec)
    ensures l in RunAll(cfg, env) <==>
              || l in RunTcp(cfg, env) || l in RunS3(cfg, env) || l in RunMySql(cfg, env)
              || l in RunKafka(cfg, env) || l in RunRedis(cfg, env) || l in RunRedisCluster(cfg, env)
              || l in RunHttp(cfg, env)
  {
  }

  lemma TcpLabelled(cfg: Config, env: Env)
    ensures forall l | l in RunTcp(cfg, env) :: LabelledFrom(l, env.Region())
  {
    forall c: TcpTarget ensures TcpLaunches(c, cfg.tcp.defaultDuration, cfg.defaultDuration, env)
                          == SettingsLaunches(TcpSettings(c), cfg.tcp.defaultDuration, cfg.defaultDuration, env) {
    }
    SectionLabelled(cfg.tcp.clusters, c => TcpLaunches(c, cfg.tcp.defaultDuration, cfg.defaultDuration, env),
                    c => TcpSettings(c), cfg.tcp.defaultDuration, cfg.defaultDuration, env);
  }

  lemma S3Labelled(cfg: Config, env: Env)
    ensures forall l | l in RunS3(cfg, env) :: LabelledFrom(l, env.Region())
  {
    forall c: S3Target, l | l in S3Launches(c, cfg.s3.defaultDuration, cfg.defaultDuration, env)
      ensures LabelledFrom(l, env.Region())
    {
      S3LaunchesLabelled(c, cfg.s3.defaultDuration, cfg.defaultDuration, env);
    }
    FlattenLabelled(cfg.s3.clusters, c => S3Launches(c, cfg.s3.defaultDuration, cfg.defaultDuration, env), env.Region());
  }

  lemma MySqlLabelled(cfg: Config, env: Env)
    ensures forall l | l in RunMySql(cfg, env) :: LabelledFrom(l, env.Region())
  {
    forall c: MySqlTarget, l | l in MySqlLaunches(c, cfg.mysql.defaultDuration, cfg.defaultDuration, env)
      ensures LabelledFrom(l, env.Region())
    {
      MySqlLaunchesLabelled(c, cfg.mysql.defaultDuration, cfg.defaultDuration, env);
    }
    FlattenLabelled(cfg.mysql.clusters, c => MySqlLaunches(c, cfg.mysql.defaultDuration, cfg.defaultDuration, env), env.Region());
  }

  lemma KafkaLabelled(cfg: Config, env: Env)
    ensures forall l | l in RunKafka(cfg, env) :: LabelledFrom(l, env.Region())
  {
    forall c: KafkaTarget ensures KafkaLaunches(c, cfg.kafka.defaultDuration, cfg.defaultDuration, env)
                          == SettingsLaunches(KafkaSettings(c), cfg.kafka.defaultDuration, cfg.defaultDuration, env) {
    }
    SectionLabelled(cfg.kafka.clusters, c => KafkaLaunches(c, cfg.kafka.defaultDuration, cfg.defaultDuration, env),
                    c => KafkaSettings(c), cfg.kafka.defaultDuration, cfg.defaultDuration, env);
  }

  lemma RedisLabelled(cfg: Config, env: Env)
    ensures forall l | l in RunRedis(cfg, env) :: LabelledFrom(l, env.Region())
  {
    forall c: RedisTarget, l | l in RedisLaunches(c, cfg.redis.defaultDuration, cfg.defaultDuration, env)
      ensures LabelledFrom(l, env.Region())
    {
      RedisLaunchesLabelled(c, cfg.redis.defaultDuration, cfg.defaultDuration, env);
    }
    FlattenLabelled(cfg.redis.clusters, c => RedisLaunches(c, cfg.redis.defaultDuration, cfg.defaultDuration, env), env.Region());
  }

  lemma RedisClusterLabelled(cfg: Config, env: Env)
    ensures forall l | l in RunRedisCluster(cfg, env) :: LabelledFrom(l, env.Region())
  {
    forall c: RedisClusterTarget ensures RedisClusterLaunches(c, cfg.redisCluster.defaultDuration, cfg.defaultDuration, env)
                          == SettingsLaunches(RedisClusterSettings(c), cfg.redisCluster.defaultDuration, cfg.defaultDuration, env) {
    }
    SectionLabelled(cfg.redisCluster.clusters, c => RedisClusterLaunches(c, cfg.redisCluster.defaultDuration, cfg.defaultDuration, env),
                    c => RedisClusterSettings(c), cfg.redisCluster.defaultDuration, cfg.defaultDuration, env);
  }

  lemma HttpLabelled(cfg: Config, env: Env)
    ensures forall l | l in RunHttp(cfg, env) :: LabelledFrom(l, env.Region())
  {
    forall c: HttpTarget ensures HttpLaunches(c, cfg.http.defaultDuration, cfg.defaultDuration, env)
                          == SettingsLaunches(HttpSettings(c), cfg.http.defaultDuration, cfg.defaultDuration, env) {
    }
    SectionLabelled(cfg.http.clusters, c => HttpLaunches(c, cfg.http.defaultDuration, cfg.defaultDuration, env),
                    c => HttpSettings(c), cfg.http.defaultDuration, cfg.defaultDuration, env);
  }

  /** The loops of a section whose clusters expand like their records. */
  lemma SectionLabelled<C>(cs: seq<C>, f: C -> seq<LaunchSpec>, wrap: C -> Settings,
                           kindDefault: string, global: string, env: Env)
    requires forall c :: f(c) == SettingsLaunches(wrap(c), kindDefault, global, env)
    ensures forall l | l in Flatten(cs, f) :: LabelledFrom(l, env.Region())
  {
    forall c, l | l in f(c) ensures LabelledFrom(l, env.Region()) {
      SettingsLaunchesLabelled(wrap(c), kindDefault, global, env);
    }
  }

  /** TCP, RedisCluster and HTTP sections yield exactly one loop per cluster,
      in cluster order, with the joined address list (TCP), the joined node
      list (RedisCluster) or the endpoint (HTTP) as host. */
  lemma OneLaunchPerCluster(cfg: Config, env: Env)
    ensures |RunTcp(cfg, env)| == |cfg.tcp.clusters|
    ensures forall i | 0 <= i < |cfg.tcp.clusters| ::
              var c := cfg.tcp.clusters[i];
              RunTcp(cfg, env)[i].cluster == c.name && RunTcp(cfg, env)[i].host == Join(c.addresses, ",")
    ensures |RunRedisCluster(cfg, env)| == |cfg.redisCluster.clusters|
    ensures forall i | 0 <= i < |cfg.redisCluster.clusters| ::
              var c := cfg.redisCluster.clusters[i];
              RunRedisCluster(cfg, env)[i].cluster == c.name
              && RunRedisCluster(cfg, env)[i].host == Join(c.nodes, ",")
              && RunRedisCluster(cfg, env)[i].targetType == "REDISCLUSTER_READWRITE"
    ensures |RunHttp(cfg, env)| == |cfg.http.clusters|
    ensures forall i | 0 <= i < |cfg.http.clusters| ::
              RunHttp(cfg, env)[i].cluster == cfg.http.clusters[i].name
              && RunHttp(cfg, env)[i].host == cfg.http.clusters[i].endpoint
  {
    FlattenSingletons(cfg.tcp.clusters, c => TcpLaunches(c, cfg.tcp.defaultDuration, cfg.defaultDuration, env));
    FlattenSingletons(cfg.redisCluster.clusters,
                      c => RedisClusterLaunches(c, cfg.redisCluster.defaultDuration, cfg.defaultDuration, env));
    FlattenSingletons(cfg.http.clusters, c => HttpLaunches(c, cfg.http.defaultDuration, cfg.defaultDuration, env));
  }

  /** Kafka yields exactly two loops per cluster and never any metric hook. */
  lemma KafkaTwoLaunchesPerCluster(cfg: Config, env: Env)
    ensures forall l | l in RunKafka(cfg, env) :: l.hooks.None? && l.host == ""
    ensures |RunKafka(cfg, env)| == 2 * |cfg.kafka.clusters|
  {
    FlattenPairs(cfg.kafka.clusters, c => KafkaLaunches(c, cfg.kafka.defaultDuration, cfg.defaultDuration, env));
  }

  /** Where each cluster yields exactly two loops, the section yields two
      loops per cluster. */
  lemma {:induction false} FlattenPairs<C>(cs: seq<C>, f: C -> seq<LaunchSpec>)
    requires forall c :: |f(c)| == 2
    ensures |Flatten(cs, f)| == 2 * |cs|
    decreases |cs|
  {
    if |cs| > 0 {
      FlattenPairs(cs[1..], f);
    }
  }
}

=== FILE: manager.dfy ===
/** The probe reconciler (ProbeManager). Its state is two maps keyed by
    (kind, cluster name): the cancel handle of the key's running probe and
    the fingerprint of the cluster record it was started from. A
    reconciliation pass starts new keys, restarts keys whose fingerprint
    changed, leaves the rest alone, and then cancels and forgets every key
    the configuration no longer lists.

    Cancel functions are modelled as handle numbers: a handle is issued when
    a key's loops are started and is "cancelled" once its context is done.
    `jobs` remembers what every handle ever issued was started with, so the
    invariants can speak about handles whose context is still live. A done
    context stops a loop's ticker, but a tick already pending may still be
    forwarded, so "live" is a statement about contexts, not about the last
    check a loop runs. */
module Manager {
  import opened Config
  import opened Launch

  /** probeKey: the manager's identity of a cluster's probes. */
  datatype Key = Key(kind: Kind, name: string)

  /** SHA-256 of the JSON encoding of a cluster record; only equality matters. */
  type Fingerprint = seq<bv8>

  /** The json.Marshal-then-sha256.Sum256 pipeline, left abstract. */
  type Hasher = Settings -> Fingerprint

  /** A cancel function, identified by the order in which it was issued. */
  type Handle = nat

  /** One startOrUpdateProbe call: a cluster record and its kind's default. */
  datatype Entry = Entry(settings: Settings, kindDefault: string)
  {
    function ProbeKey(): Key
    {
      Key(settings.Kind(), settings.Name())
    }

    /** singleCfg: a document holding just this cluster and its kind's
        default; the top-level default is left at its zero value. */
    function Single(): Config
    {
      match settings
      case TcpSettings(c) => Empty.(tcp := Section(kindDefault, [c]))
      case S3Settings(c) => Empty.(s3 := Section(kindDefault, [c]))
      case MySqlSettings(c) => Empty.(mysql := Section(kindDefault, [c]))
      case KafkaSettings(c) => Empty.(kafka := Section(kindDefault, [c]))
      case RedisSettings(c) => Empty.(redis := Section(kindDefault, [c]))
      case RedisClusterSettings(c) => Empty.(redisCluster := Section(kindDefault, [c]))
      case HttpSettings(c) => Empty.(http := Section(kindDefault, [c]))
    }
  }

  function Entries<C>(sec: Section<C>, wrap: C -> Settings): seq<Entry>
  {
    seq(|sec.clusters|, i requires 0 <= i < |sec.clusters| => Entry(wrap(sec.clusters[i]), sec.defaultDuration))
  }

  /** The startOrUpdateProbe calls of one pass, kind by kind in the order
      the manager walks them, clusters in document order. */
  function Desired(cfg: Config): seq<Entry>
  {
    Entries(cfg.tcp, c => TcpSettings(c))
    + Entries(cfg.s3, c => S3Settings(c))
    + Entries(cfg.mysql, c => MySqlSettings(c))
    + Entries(cfg.kafka, c => KafkaSettings(c))
    + Entries(cfg.redis, c => RedisSettings(c))
    + Entries(cfg.redisCluster, c => RedisClusterSettings(c))
    + Entries(cfg.http, c => HttpSettings(c))
  }

  function KeysOf(es: seq<Entry>): set<Key>
  {
    set e | e in es :: e.ProbeKey()
  }

  /** The (kind, name) pairs a document lists. */
  function ClusterKeys(cfg: Config): set<Key>
  {
    (set c | c in cfg.tcp.clusters :: Key(Tcp, c.name))
    + (set c | c in cfg.s3.clusters :: Key(S3, c.name))
    + (set c | c in cfg.mysql.clusters :: Key(MySql, c.name))
    + (set c | c in cfg.kafka.clusters :: Key(Kafka, c.name))
    + (set c | c in cfg.redis.clusters :: Key(Redis, c.name))
    + (set c | c in cfg.redisCluster.clusters :: Key(RedisCluster, c.name))
    + (set c | c in cfg.http.clusters :: Key(Http, c.name))
  }

  datatype State = State(
    probes: map<Key, Handle>,
    configs: map<Key, Fingerprint>,
    jobs: map<Handle, Entry>,
    nextHandle: Handle,
    cancelled: set<Handle>,
    rootCancelled: bool)

  /** Handles whose context is not done. */
  function Live(s: State): set<Handle>
  {
    set h | h in s.jobs && h !in s.cancelled
  }

  /** The bookkeeping invariant of every reachable manager state. */
  ghost predicate Valid(s: State, hash: Hasher)
  {
    // both maps cover the same keys
    && s.probes.Keys == s.configs.Keys
    // a key's handle was started for that key, with the stored fingerprint
    && (forall k | k in s.probes ::
          && s.probes[k] in s.jobs
          && s.jobs[s.probes[k]].ProbeKey() == k
          && s.configs[k] == hash(s.jobs[s.probes[k]].settings))
    && (forall h | h in s.jobs :: h < s.nextHandle)
    && s.cancelled <= s.jobs.Keys
    // a live handle is the one its key maps to: at most one live handle per key
    && (forall h | h in s.jobs && h !in s.cancelled ::
          s.jobs[h].ProbeKey() in s.probes && s.probes[s.jobs[h].ProbeKey()] == h)
    // unless the root context is done, every stored handle is live
    && (!s.rootCancelled ==> forall k | k in s.probes :: s.probes[k] !in s.cancelled)
    && (s.rootCancelled ==> s.cancelled == s.jobs.Keys)
  }

  /** NewProbeManager: empty maps under a fresh root context. */
  function NewProbeManager(): (s: State)
    ensures forall hash: Hasher :: Valid(s, hash)
    ensures Live(s) == {}
  {
    State(map[], map[], map[], 0, {}, false)
  }

  /** startOrUpdateProbe: a no-op when the stored fingerprint equals the new
      one; otherwise cancel the key's running handle, if any, and store a
      fresh handle with the new fingerprint. A handle derived from a root
      context that is already done is born cancelled. */
  function StartOrUpdate(s: State, e: Entry, hash: Hasher): (s': State)
    ensures e.ProbeKey() in s'.configs && s'.configs[e.ProbeKey()] == hash(e.settings)
    ensures s' == s <==> (e.ProbeKey() in s.configs && s.configs[e.ProbeKey()] == hash(e.settings))
    ensures s' != s ==> && e.ProbeKey() in s'.probes && s'.probes[e.ProbeKey()] == s.nextHandle
                        && s'.jobs == s.jobs[s.nextHandle := e]
                        && (e.ProbeKey() in s.probes ==> s.probes[e.ProbeKey()] in s'.cancelled)
    ensures s.cancelled <= s'.cancelled
    ensures forall h | h in s'.cancelled && h !in s.cancelled ::
              || (e.ProbeKey() in s.probes && h == s.probes[e.ProbeKey()])
              || (s.rootCancelled && h == s.nextHandle)
    ensures s'.nextHandle >= s.nextHandle && s'.rootCancelled == s.rootCancelled
    ensures forall k | k != e.ProbeKey() ::
              && (k in s'.probes <==> k in s.probes) && (k in s'.configs <==> k in s.configs)
              && (k in s.probes ==> s'.probes[k] == s.probes[k])
              && (k in s.configs ==> s'.configs[k] == s.configs[k])
  {
    var key := e.ProbeKey();
    var fp := hash(e.settings);
    if key in s.configs && s.configs[key] == fp then s
    else
      var stopped := if key in s.probes then s.cancelled + {s.probes[key]} else s.cancelled;
      var issued := s.nextHandle;
      var born := if s.rootCancelled then stopped + {issued} else stopped;
      State(s.probes[key := issued], s.configs[key := fp], s.jobs[issued := e],
            issued + 1, born, s.rootCancelled)
  }

  /** The per-kind loops of LaunchOrUpdateProbes: every entry in order. */
  function StartAll(s: State, es: seq<Entry>, hash: Hasher): State
    decreases |es|
  {
    if |es| == 0 then s
    else StartAll(StartOrUpdate(s, es[0], hash), es[1..], hash)
  }

  /** The stale-key sweep: cancel and forget every stored key not seen in
      this pass. */
  function Sweep(s: State, active: set<Key>): (s': State)
    ensures s'.probes.Keys == s.probes.Keys * active
    ensures s'.configs.Keys == s.configs.Keys - (s.probes.Keys - active)
    ensures forall k | k in s'.probes :: s'.probes[k] == s.probes[k]
    ensures forall k | k in s'.configs :: s'.configs[k] == s.configs[k]
    ensures forall k | k in s.probes && k !in active :: s.probes[k] in s'.cancelled
    ensures s'.cancelled == s.cancelled + (set k | k in s.probes && k !in active :: s.probes[k])
    ensures s'.jobs == s.jobs && s'.nextHandle == s.nextHandle && s'.rootCancelled == s.rootCancelled
  {
    var stale := s.probes.Keys - active;
    s.(probes := s.probes - stale,
       configs := s.configs - stale,
       cancelled := s.cancelled + (set k | k in stale :: s.probes[k]))
  }

  /** LaunchOrUpdateProbes. */
  function LaunchOrUpdateProbes(s: State, cfg: Config, hash: Hasher): State
  {
    var es := Desired(cfg);
    Sweep(StartAll(s, es, hash), KeysOf(es))
  }

  /** Stop: cancel the root context, which every handle was derived from,
      and empty both maps. */
  function Stop(s: State): (s': State)
    ensures s'.probes == map[] && s'.configs == map[]
    ensures s'.rootCancelled && s'.jobs == s.jobs && s'.nextHandle == s.nextHandle
    ensures s'.cancelled == s.cancelled + s.jobs.Keys
  {
    s.(probes := map[], configs := map[], cancelled := s.cancelled + s.jobs.Keys, rootCancelled := true)
  }

  /** Cancelling the parent context given to NewProbeManager (the program's
      shutdown path): the manager's own context, and every handle derived
      from it, is done, while both maps keep their entries. */
  function CancelParent(s: State): (s': State)
    ensures s'.probes == s.probes && s'.configs == s.configs
    ensures s'.rootCancelled && s'.jobs == s.jobs && s'.nextHandle == s.nextHandle
    ensures s'.cancelled == s.cancelled + s.jobs.Keys
  {
    s.(cancelled := s.cancelled + s.jobs.Keys, rootCancelled := true)
  }

  /** The loops running under a key's handle: the runner applied to the
      key's single-cluster document. */
  function KeyLoops(s: State, k: Key, env: Env): seq<LaunchSpec>
    requires k in s.probes && s.probes[k] in s.jobs
  {
    RunAll(s.jobs[s.probes[k]].Single(), env)
  }
}

=== FILE: manager_lifecycle.dfy ===
/** What the manager's state means for the contexts its loops run under
    (Stop or a cancelled parent leaves no live context), which loops a key
    runs (those of one record of the document), how singleCfg resolves
    defaults, and two consequences of keying by (kind, name) alone. */
module ManagerLifecycle {
  import opened Prelude
  import opened Config
  import opened Launch
  import opened Manager
  import opened ManagerProperties

  // ------------------------------------------------------------ liveness

  /** While the root context is not done (neither Stop nor a cancelled
      parent), the live handles are exactly the handles the manager stores:
      one live context per stored key. */
  lemma LiveHandlesAreStored(s: State, hash: Hasher)
    requires Valid(s, hash) && !s.rootCancelled
    ensures Live(s) == s.probes.Values
  {
    forall h | h in s.probes.Values ensures h in Live(s) {
      var k :| k in s.probes && s.probes[k] == h;
    }
    forall h | h in Live(s) ensures h in s.probes.Values {
      assert s.probes[s.jobs[h].ProbeKey()] == h;
    }
  }

  /** Two live handles started for the same key are the same handle. */
  lemma AtMostOneLiveHandlePerKey(s: State, hash: Hasher, h1: Handle, h2: Handle)
    requires Valid(s, hash) && h1 in Live(s) && h2 in Live(s)
    requires s.jobs[h1].ProbeKey() == s.jobs[h2].ProbeKey()
    ensures h1 == h2
  {
  }

  /** Stop keeps the invariant, cancels every stored handle and leaves no
      handle whose context is live. */
  lemma StopCancelsEverything(s: State, hash: Hasher)
    requires Valid(s, hash)
    ensures Valid(Stop(s), hash)
    ensures forall k | k in s.probes :: s.probes[k] in Stop(s).cancelled
    ensures Live(Stop(s)) == {}
  {
  }

  /** Once the root context is done, a pass fills the maps with the
      document's keys again, yet every handle it issues has a done context. */
  lemma RootDonePassStartsNothing(s: State, cfg: Config, hash: Hasher)
    requires Valid(s, hash) && s.rootCancelled
    ensures var s' := LaunchOrUpdateProbes(s, cfg, hash);
            && s'.probes.Keys == ClusterKeys(cfg)
            && Live(s') == {}
  {
    var es := Desired(cfg);
    StartAllValid(s, es, hash);
    ReconcileValid(s, cfg, hash);
    ReconcileKeys(s, cfg, hash);
    var s' := LaunchOrUpdateProbes(s, cfg, hash);
    assert s'.rootCancelled;
  }

  /** After Stop, a pass refills the maps but no handle it issues has a live
      context. */
  lemma NothingLiveAfterStop(s: State, cfg: Config, hash: Hasher)
    requires Valid(s, hash)
    ensures var s' := LaunchOrUpdateProbes(Stop(s), cfg, hash);
            && s'.probes.Keys == ClusterKeys(cfg)
            && Live(s') == {}
  {
    StopCancelsEverything(s, hash);
    RootDonePassStartsNothing(Stop(s), cfg, hash);
  }

  /** Cancelling the parent context keeps the invariant and leaves no handle
      with a live context, yet both maps keep every key; Stop afterwards only
      clears them, and a later pass starts nothing live. */
  lemma ParentCancelLeavesMapsFull(s: State, cfg: Config, hash: Hasher)
    requires Valid(s, hash)
    ensures Valid(CancelParent(s), hash)
    ensures Live(CancelParent(s)) == {}
    ensures CancelParent(s).probes.Keys == s.probes.Keys
    ensures Stop(CancelParent(s)) == Stop(s)
    ensures Live(LaunchOrUpdateProbes(CancelParent(s), cfg, hash)) == {}
  {
    RootDonePassStartsNothing(CancelParent(s), cfg, hash);
  }

  // ------------------------------------------------------------ loops of a key

  lemma FlattenOne<C>(c: C, f: C -> seq<LaunchSpec>)
    ensures Flatten([c], f) == f(c)
  {
    assert Flatten([c], f) == f(c) + Flatten([c][1..], f);
    assert [c][1..] == [];
  }

  lemma TcpSingleLoops(c: TcpTarget, d: string, env: Env)
    ensures RunAll(Empty.(tcp := Section(d, [c])), env) == TcpLaunches(c, d, "", env)
  {
    var cfg := Empty.(tcp := Section(d, [c]));
    FlattenOne(c, c => TcpLaunches(c, cfg.tcp.defaultDuration, cfg.defaultDuration, env));
    assert RunS3(cfg, env) == [];
    assert RunMySql(cfg, env) == [];
    assert RunKafka(cfg, env) == [];
    assert RunRedis(cfg, env) == [];
    assert RunRedisCluster(cfg, env) == [];
    assert RunHttp(cfg, env) == [];
  }

  lemma S3SingleLoops(c: S3Target, d: string, env: Env)
    ensures RunAll(Empty.(s3 := Section(d, [c])), env) == S3Launches(c, d, "", env)
  {
    var cfg := Empty.(s3 := Section(d, [c]));
    FlattenOne(c, c => S3Launches(c, cfg.s3.defaultDuration, cfg.defaultDuration, env));
    assert RunTcp(cfg, env) == [];
    assert RunMySql(cfg, env) == [];
    assert RunKafka(cfg, env) == [];
    assert RunRedis(cfg, env) == [];
    assert RunRedisCluster(cfg, env) == [];
    assert RunHttp(cfg, env) == [];
  }

  lemma MySqlSingleLoops(c: MySqlTarget, d: string, env: Env)
    ensures RunAll(Empty.(mysql := Section(d, [c])), env) == MySqlLaunches(c, d, "", env)
  {
    var cfg := Empty.(mysql := Section(d, [c]));
    OnlyMySqlRuns(cfg, env);
    FlattenOne(c, c => MySqlLaunches(c, cfg.mysql.defaultDuration, cfg.defaultDuration, env));
  }

  /** A document whose only clusters are MySQL ones runs only RunMySQL. */
  lemma OnlyMySqlRuns(cfg: Config, env: Env)
    requires cfg.tcp.clusters == [] && cfg.s3.clusters == [] && cfg.kafka.clusters == []
    requires cfg.redis.clusters == [] && cfg.redisCluster.clusters == [] && cfg.http.clusters == []
    ensures RunAll(cfg, env) == RunMySql(cfg, env)
  {
    assert RunTcp(cfg, env) == [];
    assert RunS3(cfg, env) == [];
    assert RunKafka(cfg, env) == [];
    assert RunRedis(cfg, env) == [];
    assert RunRedisCluster(cfg, env) == [];
    assert RunHttp(cfg, env) == [];
  }

  lemma KafkaSingleLoops(c: KafkaTarget, d: string, env: Env)
    ensures RunAll(Empty.(kafka := Section(d, [c])), env) == KafkaLaunches(c, d, "", env)
  {
    var cfg := Empty.(kafka := Section(d, [c]));
    FlattenOne(c, c => KafkaLaunches(c, cfg.kafka.defaultDuration, cfg.defaultDuration, env));
    assert RunTcp(cfg, env) == [];
    assert RunS3(cfg, env) == [];
    assert RunMySql(cfg, env) == [];
    assert RunRedis(cfg, env) == [];
    assert RunRedisCluster(cfg, env) == [];
    assert RunHttp(cfg, env) == [];
  }

  lemma RedisSingleLoops(c: RedisTarget, d: string, env: Env)
    ensures RunAll(Empty.(redis := Section(d, [c])), env) == RedisLaunches(c, d, "", env)
  {
    var cfg := Empty.(redis := Section(d, [c]));
    FlattenOne(c, c => RedisLaunches(c, cfg.redis.defaultDuration, cfg.defaultDuration, env));
    assert RunTcp(cfg, env) == [];
    assert RunS3(cfg, env) == [];
    assert RunMySql(cfg, env) == [];
    assert RunKafka(cfg, env) == [];
    assert RunRedisCluster(cfg, env) == [];
    assert RunHttp(cfg, env) == [];
  }

  lemma RedisClusterSingleLoops(c: RedisClusterTarget, d: string, env: Env)
    ensures RunAll(Empty.(redisCluster := Section(d, [c])), env) == RedisClusterLaunches(c, d, "", env)
  {
    var cfg := Empty.(redisCluster := Section(d, [c]));
    FlattenOne(c, c => RedisClusterLaunches(c, cfg.redisCluster.defaultDuration, cfg.defaultDuration, env));
    assert RunTcp(cfg, env) == [];
    assert RunS3(cfg, env) == [];
    assert RunMySql(cfg, env) == [];
    assert RunKafka(cfg, env) == [];
    assert RunRedis(cfg, env) == [];
    assert RunHttp(cfg, env) == [];
  }

  lemma HttpSingleLoops(c: HttpTarget, d: string, env: Env)
    ensures RunAll(Empty.(http := Section(d, [c])), env) == HttpLaunches(c, d, "", env)
  {
    var cfg := Empty.(http := Section(d, [c]));
    FlattenOne(c, c => HttpLaunches(c, cfg.http.defaultDuration, cfg.defaultDuration, env));
    assert RunTcp(cfg, env) == [];
    assert RunS3(cfg, env) == [];
    assert RunMySql(cfg, env) == [];
    assert RunKafka(cfg, env) == [];
    assert RunRedis(cfg, env) == [];
    assert RunRedisCluster(cfg, env) == [];
  }

  /** The loops started for an entry are its own record's launches, with the
      kind's default and an empty top-level default: the document's
      top-level DefaultDuration never reaches a probe the manager starts. */
  lemma SingleConfigLoops(e: Entry, env: Env)
    ensures RunAll(e.Single(), env) == SettingsLaunches(e.settings, e.kindDefault, "", env)
  {
    match e.settings
    case TcpSettings(c) =>
      assert e.Single() == Empty.(tcp := Section(e.kindDefault, [c]));
      TcpSingleLoops(c, e.kindDefault, env);
    case S3Settings(c) =>
      assert e.Single() == Empty.(s3 := Section(e.kindDefault, [c]));
      S3SingleLoops(c, e.kindDefault, env);
    case MySqlSettings(c) =>
      assert e.Single() == Empty.(mysql := Section(e.kindDefault, [c]));
      MySqlSingleLoops(c, e.kindDefault, env);
    case KafkaSettings(c) =>
      assert e.Single() == Empty.(kafka := Section(e.kindDefault, [c]));
      KafkaSingleLoops(c, e.kindDefault, env);
    case RedisSettings(c) =>
      assert e.Single() == Empty.(redis := Section(e.kindDefault, [c]));
      RedisSingleLoops(c, e.kindDefault, env);
    case RedisClusterSettings(c) =>
      assert e.Single() == Empty.(redisCluster := Section(e.kindDefault, [c]));
      RedisClusterSingleLoops(c, e.kindDefault, env);
    case HttpSettings(c) =>
      assert e.Single() == Empty.(http := Section(e.kindDefault, [c]));
      HttpSingleLoops(c, e.kindDefault, env);
  }

  /** With a collision-free fingerprint, after a pass each listed key runs the
      launches of its last record in the document. */
  lemma ReconciledLoopsFollowConfig(s: State, cfg: Config, hash: Hasher, env: Env, k: Key)
    requires Valid(s, hash)
    requires forall a, b :: hash(a) == hash(b) ==> a == b
    requires k in ClusterKeys(cfg)
    ensures var s' := LaunchOrUpdateProbes(s, cfg, hash);
            && k in s'.probes && s'.probes[k] in s'.jobs
            && s'.jobs[s'.probes[k]].settings == LastFor(Desired(cfg), k).value.settings
            && KeyLoops(s', k, env)
               == SettingsLaunches(LastFor(Desired(cfg), k).value.settings, s'.jobs[s'.probes[k]].kindDefault, "", env)
  {
    var s' := LaunchOrUpdateProbes(s, cfg, hash);
    ReconcileValid(s, cfg, hash);
    ReconcileKeys(s, cfg, hash);
    ReconcileHashes(s, cfg, hash);
    var e := s'.jobs[s'.probes[k]];
    assert hash(e.settings) == hash(LastFor(Desired(cfg), k).value.settings);
    SingleConfigLoops(e, env);
  }

  lemma {:induction false} FlattenConcat<C>(a: seq<C>, b: seq<C>, f: C -> seq<LaunchSpec>)
    ensures Flatten(a + b, f) == Flatten(a, f) + Flatten(b, f)
    decreases |a|
  {
    if |a| == 0 {
      assert a + b == b;
    } else {
      FlattenConcat(a[1..], b, f);
      assert (a + b)[1..] == a[1..] + b;
    }
  }

  /** Running a section's clusters one by one is running its entries one by one. */
  lemma {:induction false} SectionAsEntries<C>(cs: seq<C>, d: string, wrap: C -> Settings,
                                               f: C -> seq<LaunchSpec>, g: Entry -> seq<LaunchSpec>)
    requires forall c :: f(c) == g(Entry(wrap(c), d))
    ensures Flatten(cs, f) == Flatten(Entries(Section(d, cs), wrap), g)
    decreases |cs|
  {
    var es := Entries(Section(d, cs), wrap);
    if |cs| > 0 {
      SectionAsEntries(cs[1..], d, wrap, f, g);
      assert es[1..] == Entries(Section(d, cs[1..]), wrap);
      assert es[0] == Entry(wrap(cs[0]), d);
    }
  }

  lemma TcpAsEntries(cfg: Config, env: Env)
    ensures RunTcp(cfg, env)
         == Flatten(Entries(cfg.tcp, c => TcpSettings(c)),
                    (e: Entry) => SettingsLaunches(e.settings, e.kindDefault, cfg.defaultDuration, env))
  {
    forall c: TcpTarget
      ensures TcpLaunches(c, cfg.tcp.defaultDuration, cfg.defaultDuration, env)
           == SettingsLaunches(TcpSettings(c), cfg.tcp.defaultDuration, cfg.defaultDuration, env)
    {
    }
    SectionAsEntries(cfg.tcp.clusters, cfg.tcp.defaultDuration, c => TcpSettings(c),
                     c => TcpLaunches(c, cfg.tcp.defaultDuration, cfg.defaultDuration, env),
                     (e: Entry) => SettingsLaunches(e.settings, e.kindDefault, cfg.defaultDuration, env));
  }

  lemma S3AsEntries(cfg: Config, env: Env)
    ensures RunS3(cfg, env)
         == Flatten(Entries(cfg.s3, c => S3Settings(c)),
                    (e: Entry) => SettingsLaunches(e.settings, e.kindDefault, cfg.defaultDuration, env))
  {
    forall c: S3Target
      ensures S3Launches(c, cfg.s3.defaultDuration, cfg.defaultDuration, env)
           == SettingsLaunches(S3Settings(c), cfg.s3.defaultDuration, cfg.defaultDuration, env)
    {
    }
    SectionAsEntries(cfg.s3.clusters, cfg.s3.defaultDuration, c => S3Settings(c),
                     c => S3Launches(c, cfg.s3.defaultDuration, cfg.defaultDuration, env),
                     (e: Entry) => SettingsLaunches(e.settings, e.kindDefault, cfg.defaultDuration, env));
  }

  lemma MySqlAsEntries(cfg: Config, env: Env)
    ensures RunMySql(cfg, env)
         == Flatten(Entries(cfg.mysql, c => MySqlSettings(c)),
                    (e: Entry) => SettingsLaunches(e.settings, e.kindDefault, cfg.defaultDuration, env))
  {
    forall c: MySqlTarget
      ensures MySqlLaunches(c, cfg.mysql.defaultDuration, cfg.defaultDuration, env)
           == SettingsLaunches(MySqlSettings(c), cfg.mysql.defaultDuration, cfg.defaultDuration, env)
    {
    }
    SectionAsEntries(cfg.mysql.clusters, cfg.mysql.defaultDuration, c => MySqlSettings(c),
                     c => MySqlLaunches(c, cfg.mysql.defaultDuration, cfg.defaultDuration, env),
                     (e: Entry) => SettingsLaunches(e.settings, e.kindDefault, cfg.defaultDuration, env));
  }

  lemma KafkaAsEntries(cfg: Config, env: Env)
    ensures RunKafka(cfg, env)
         == Flatten(Entries(cfg.kafka, c => KafkaSettings(c)),
                    (e: Entry) => SettingsLaunches(e.settings, e.kindDefault, cfg.defaultDuration, env))
  {
    forall c: KafkaTarget
      ensures KafkaLaunches(c, cfg.kafka.defaultDuration, cfg.defaultDuration, env)
           == SettingsLaunches(KafkaSettings(c), cfg.kafka.defaultDuration, cfg.defaultDuration, env)
    {
    }
    SectionAsEntries(cfg.kafka.clusters, cfg.kafka.defaultDuration, c => KafkaSettings(c),
                     c => KafkaLaunches(c, cfg.kafka.defaultDuration, cfg.defaultDuration, env),
                     (e: Entry) => SettingsLaunches(e.settings, e.kindDefault, cfg.defaultDuration, env));
  }

  lemma RedisAsEntries(cfg: Config, env: Env)
    ensures RunRedis(cfg, env)
         == Flatten(Entries(cfg.redis, c => RedisSettings(c)),
                    (e: Entry) => SettingsLaunches(e.settings, e.kindDefault, cfg.defaultDuration, env))
  {
    forall c: RedisTarget
      ensures RedisLaunches(c, cfg.redis.defaultDuration, cfg.defaultDuration, env)
           == SettingsLaunches(RedisSettings(c), cfg.redis.defaultDuration, cfg.defaultDuration, env)
    {
      RedisSettingsLaunches(c, cfg.redis.defaultDuration, cfg.defaultDuration, env);
    }
    SectionAsEntries(cfg.redis.clusters, cfg.redis.defaultDuration, c => RedisSettings(c),
                     c => RedisLaunches(c, cfg.redis.defaultDuration, cfg.defaultDuration, env),
                     (e: Entry) => SettingsLaunches(e.settings, e.kindDefault, cfg.defaultDuration, env));
  }

  lemma RedisClusterAsEntries(cfg: Config, env: Env)
    ensures RunRedisCluster(cfg, env)
         == Flatten(Entries(cfg.redisCluster, c => RedisClusterSettings(c)),
                    (e: Entry) => SettingsLaunches(e.settings, e.kindDefault, cfg.defaultDuration, env))
  {
    forall c: RedisClusterTarget
      ensures RedisClusterLaunches(c, cfg.redisCluster.defaultDuration, cfg.defaultDuration, env)
           == SettingsLaunches(RedisClusterSettings(c), cfg.redisCluster.defaultDuration, cfg.defaultDuration, env)
    {
    }
    SectionAsEntries(cfg.redisCluster.clusters, cfg.redisCluster.defaultDuration, c => RedisClusterSettings(c),
                     c => RedisClusterLaunches(c, cfg.redisCluster.defaultDuration, cfg.defaultDuration, env),
                     (e: Entry) => SettingsLaunches(e.settings, e.kindDefault, cfg.defaultDuration, env));
  }

  lemma HttpAsEntries(cfg: Config, env: Env)
    ensures RunHttp(cfg, env)
         == Flatten(Entries(cfg.http, c => HttpSettings(c)),
                    (e: Entry) => SettingsLaunches(e.settings, e.kindDefault, cfg.defaultDuration, env))
  {
    forall c: HttpTarget
      ensures HttpLaunches(c, cfg.http.defaultDuration, cfg.defaultDuration, env)
           == SettingsLaunches(HttpSettings(c), cfg.http.defaultDuration, cfg.defaultDuration, env)
    {
    }
    SectionAsEntries(cfg.http.clusters, cfg.http.defaultDuration, c => HttpSettings(c),
                     c => HttpLaunches(c, cfg.http.defaultDuration, cfg.defaultDuration, env),
                     (e: Entry) => SettingsLaunches(e.settings, e.kindDefault, cfg.defaultDuration, env));
  }

  /** A direct run of a whole document starts the same loops, in the same
      order, as running each of the pass's entries on its own. */
  lemma RunAllIsPerEntry(cfg: Config, env: Env)
    ensures RunAll(cfg, env)
         == Flatten(Desired(cfg), (e: Entry) => SettingsLaunches(e.settings, e.kindDefault, cfg.defaultDuration, env))
  {
    var g := (e: Entry) => SettingsLaunches(e.settings, e.kindDefault, cfg.defaultDuration, env);
    TcpAsEntries(cfg, env);
    S3AsEntries(cfg, env);
    MySqlAsEntries(cfg, env);
    KafkaAsEntries(cfg, env);
    RedisAsEntries(cfg, env);
    RedisClusterAsEntries(cfg, env);
    HttpAsEntries(cfg, env);
    var tcp := Entries(cfg.tcp, c => TcpSettings(c));
    var s3 := Entries(cfg.s3, c => S3Settings(c));
    var mysql := Entries(cfg.mysql, c => MySqlSettings(c));
    var kafka := Entries(cfg.kafka, c => KafkaSettings(c));
    var redis := Entries(cfg.redis, c => RedisSettings(c));
    var redisCluster := Entries(cfg.redisCluster, c => RedisClusterSettings(c));
    var http := Entries(cfg.http, c => HttpSettings(c));
    FlattenConcat(tcp, s3, g);
    FlattenConcat(tcp + s3, mysql, g);
    FlattenConcat(tcp + s3 + mysql, kafka, g);
    FlattenConcat(tcp + s3 + mysql + kafka, redis, g);
    FlattenConcat(tcp + s3 + mysql + kafka + redis, redisCluster, g);
    FlattenConcat(tcp + s3 + mysql + kafka + redis + redisCluster, http, g);
  }

  /** The loops the manager starts, key by key in pass order, are exactly
      those of a direct run of the document with its top-level default
      cleared. */
  lemma ManagerRunsDocumentWithoutGlobalDefault(cfg: Config, env: Env)
    ensures Flatten(Desired(cfg), (e: Entry) => RunAll(e.Single(), env)) == RunAll(cfg.(defaultDuration := ""), env)
  {
    var cleared := cfg.(defaultDuration := "");
    RunAllIsPerEntry(cleared, env);
    assert Desired(cleared) == Desired(cfg);
    forall e: Entry ensures RunAll(e.Single(), env) == SettingsLaunches(e.settings, e.kindDefault, "", env) {
      SingleConfigLoops(e, env);
    }
    FlattenPointwise(Desired(cfg), (e: Entry) => RunAll(e.Single(), env),
                     (e: Entry) => SettingsLaunches(e.settings, e.kindDefault, cleared.defaultDuration, env));
  }

  lemma {:induction false} FlattenPointwise<C>(cs: seq<C>, f: C -> seq<LaunchSpec>, g: C -> seq<LaunchSpec>)
    requires forall c :: f(c) == g(c)
    ensures Flatten(cs, f) == Flatten(cs, g)
    decreases |cs|
  {
    if |cs| > 0 {
      FlattenPointwise(cs[1..], f, g);
    }
  }

  // ------------------------------------------------------------ defaults

  /** The manager never reads the top-level default: a document differing
      only there reconciles to the very same state. */
  lemma GlobalDefaultNeverConsulted(s: State, cfg: Config, global: string, hash: Hasher)
    ensures LaunchOrUpdateProbes(s, cfg.(defaultDuration := global), hash) == LaunchOrUpdateProbes(s, cfg, hash)
  {
    assert Desired(cfg.(defaultDuration := global)) == Desired(cfg);
  }

  lemma EntriesRedefaulted<C>(a: Section<C>, b: Section<C>, wrap: C -> Settings)
    requires a.clusters == b.clusters
    ensures forall e | e in Entries(b, wrap) :: Entry(e.settings, a.defaultDuration) in Entries(a, wrap)
  {
    forall e | e in Entries(b, wrap) ensures Entry(e.settings, a.defaultDuration) in Entries(a, wrap) {
      var i :| 0 <= i < |Entries(b, wrap)| && Entries(b, wrap)[i] == e;
      assert Entries(a, wrap)[i] == Entry(e.settings, a.defaultDuration);
    }
  }

  /** Changing only defaults keeps every record: each entry of the new pass
      has an entry of the old one with the same record. */
  lemma RedefaultedRecords(cfg: Config, cfg2: Config)
    requires SameClusters(cfg, cfg2)
    ensures forall e | e in Desired(cfg2) :: exists d :: Entry(e.settings, d) in Desired(cfg)
  {
    EntriesRedefaulted(cfg.tcp, cfg2.tcp, c => TcpSettings(c));
    EntriesRedefaulted(cfg.s3, cfg2.s3, c => S3Settings(c));
    EntriesRedefaulted(cfg.mysql, cfg2.mysql, c => MySqlSettings(c));
    EntriesRedefaulted(cfg.kafka, cfg2.kafka, c => KafkaSettings(c));
    EntriesRedefaulted(cfg.redis, cfg2.redis, c => RedisSettings(c));
    EntriesRedefaulted(cfg.redisCluster, cfg2.redisCluster, c => RedisClusterSettings(c));
    EntriesRedefaulted(cfg.http, cfg2.http, c => HttpSettings(c));
  }

  /** A change of kind-wide defaults alone never restarts a probe: the
      fingerprint covers the cluster record only, so the loops keep the
      interval they were started with. */
  lemma KindDefaultChangeDoesNotRestart(s: State, cfg: Config, cfg2: Config, hash: Hasher)
    requires Valid(s, hash) && Coherent(Desired(cfg), hash) && SameClusters(cfg, cfg2)
    ensures var s1 := LaunchOrUpdateProbes(s, cfg, hash);
            LaunchOrUpdateProbes(s1, cfg2, hash) == s1
  {
    var es := Desired(cfg);
    var es2 := Desired(cfg2);
    var s1 := LaunchOrUpdateProbes(s, cfg, hash);
    ReconcileKeys(s, cfg, hash);
    ReconcileHashes(s, cfg, hash);
    DesiredKeys(cfg);
    DesiredKeys(cfg2);
    RedefaultedRecords(cfg, cfg2);
    forall e | e in es2
      ensures e.ProbeKey() in s1.configs && s1.configs[e.ProbeKey()] == hash(e.settings)
    {
      var d :| Entry(e.settings, d) in es;
      var k := e.ProbeKey();
      assert Entry(e.settings, d).ProbeKey() == k;
      assert k in KeysOf(es);
      var last := LastFor(es, k).value;
      assert hash(last.settings) == hash(e.settings);
    }
    AgreeingPassIsNoop(s1, es2, hash);
  }

  // ------------------------------------------------------------ duplicate names

  lemma DuplicatePass(a: TcpTarget, b: TcpTarget, d: string)
    ensures Desired(Empty.(tcp := Section(d, [a, b]))) == [Entry(TcpSettings(a), d), Entry(TcpSettings(b), d)]
  {
    var cfg := Empty.(tcp := Section(d, [a, b]));
    assert Entries(cfg.tcp, c => TcpSettings(c)) == [Entry(TcpSettings(a), d), Entry(TcpSettings(b), d)];
  }

  lemma LastOfPair(x: Entry, y: Entry, k: Key)
    requires x.ProbeKey() == k && y.ProbeKey() == k
    ensures LastFor([x, y], k) == Some(y)
  {
    assert [x, y][1..] == [y];
    assert [y][1..] == [];
  }

  /** After one pass over two same-named TCP clusters, the key holds the
      second cluster's fingerprint. */
  lemma DuplicateFirstPass(s: State, a: TcpTarget, b: TcpTarget, d: string, hash: Hasher)
    requires Valid(s, hash) && a.name == b.name
    ensures var cfg := Empty.(tcp := Section(d, [a, b]));
            var s1 := LaunchOrUpdateProbes(s, cfg, hash);
            && Key(Tcp, a.name) in ClusterKeys(cfg)
            && Key(Tcp, a.name) in s1.probes && Key(Tcp, a.name) in s1.configs
            && s1.configs[Key(Tcp, a.name)] == hash(TcpSettings(b))
  {
    var cfg := Empty.(tcp := Section(d, [a, b]));
    var k := Key(Tcp, a.name);
    var x := Entry(TcpSettings(a), d);
    var y := Entry(TcpSettings(b), d);
    DuplicatePass(a, b, d);
    LastOfPair(x, y, k);
    assert k in KeysOf([x, y]) by {
      assert x in [x, y];
    }
    DesiredKeys(cfg);
    ReconcileKeys(s, cfg, hash);
    ReconcileHashes(s, cfg, hash);
  }

  /** Two TCP clusters sharing a name but not a fingerprint defeat
      idempotence: every pass restarts that key, because the first record no
      longer matches the fingerprint the second one left behind. */
  lemma DuplicateNameRestartsEveryPass(s: State, a: TcpTarget, b: TcpTarget, d: string, hash: Hasher)
    requires Valid(s, hash) && a.name == b.name
    requires hash(TcpSettings(a)) != hash(TcpSettings(b))
    ensures var cfg := Empty.(tcp := Section(d, [a, b]));
            var k := Key(Tcp, a.name);
            var s1 := LaunchOrUpdateProbes(s, cfg, hash);
            var s2 := LaunchOrUpdateProbes(s1, cfg, hash);
            && k in s1.probes && k in s2.probes
            && s1.probes[k] in s2.cancelled && s2.probes[k] != s1.probes[k]
  {
    var cfg := Empty.(tcp := Section(d, [a, b]));
    var k := Key(Tcp, a.name);
    var s1 := LaunchOrUpdateProbes(s, cfg, hash);
    DuplicateFirstPass(s, a, b, d, hash);
    ReconcileValid(s, cfg, hash);
    DuplicatePass(a, b, d);
    var es := Desired(cfg);
    assert es[0] in es && es[0].ProbeKey() == k && hash(es[0].settings) != s1.configs[k];
    assert !Unchanged(s1, es, k, hash);
    ReconcileRestartsChanged(s1, cfg, hash, k);
  }
}

=== FILE: manager_properties.dfy ===
/** What a reconciliation pass and Stop guarantee about the manager's
    bookkeeping: the invariant is kept, unchanged keys keep their handle,
    changed keys are restarted, stale keys are cancelled and forgotten, and
    a second pass over the same document is a no-op. */
module ManagerProperties {
  import opened Prelude
  import opened Config
  import opened Launch
  import opened Manager

  // ------------------------------------------------------------ vocabulary

  /** The last entry of a pass for key `k`: the one whose fingerprint the
      pass leaves stored. */
  function LastFor(es: seq<Entry>, k: Key): (r: Option<Entry>)
    ensures r.Some? <==> k in KeysOf(es)
    ensures r.Some? ==> r.value in es && r.value.ProbeKey() == k
    decreases |es|
  {
    if |es| == 0 then None
    else
      KeysOfCons(es);
      match LastFor(es[1..], k)
      case Some(e) => Some(e)
      case None => if es[0].ProbeKey() == k then Some(es[0]) else None
  }

  /** Every entry of the pass for `k` carries the fingerprint already stored
      for `k` (vacuously so when the pass does not mention `k`). */
  ghost predicate Unchanged(s: State, es: seq<Entry>, k: Key, hash: Hasher)
  {
    && k in s.configs
    && forall e | e in es && e.ProbeKey() == k :: hash(e.settings) == s.configs[k]
  }

  /** Entries sharing a key share a fingerprint. */
  ghost predicate Coherent(es: seq<Entry>, hash: Hasher)
  {
    forall e1, e2 | e1 in es && e2 in es && e1.ProbeKey() == e2.ProbeKey() ::
      hash(e1.settings) == hash(e2.settings)
  }

  /** Within each kind, no two clusters share a name. */
  ghost predicate UniqueNames(cfg: Config)
  {
    && (forall i, j | 0 <= i < j < |cfg.tcp.clusters| :: cfg.tcp.clusters[i].name != cfg.tcp.clusters[j].name)
    && (forall i, j | 0 <= i < j < |cfg.s3.clusters| :: cfg.s3.clusters[i].name != cfg.s3.clusters[j].name)
    && (forall i, j | 0 <= i < j < |cfg.mysql.clusters| :: cfg.mysql.clusters[i].name != cfg.mysql.clusters[j].name)
    && (forall i, j | 0 <= i < j < |cfg.kafka.clusters| :: cfg.kafka.clusters[i].name != cfg.kafka.clusters[j].name)
    && (forall i, j | 0 <= i < j < |cfg.redis.clusters| :: cfg.redis.clusters[i].name != cfg.redis.clusters[j].name)
    && (forall i, j | 0 <= i < j < |cfg.redisCluster.clusters| ::
          cfg.redisCluster.clusters[i].name != cfg.redisCluster.clusters[j].name)
    && (forall i, j | 0 <= i < j < |cfg.http.clusters| :: cfg.http.clusters[i].name != cfg.http.clusters[j].name)
  }

  lemma KeysOfCons(es: seq<Entry>)
    requires |es| > 0
    ensures KeysOf(es) == {es[0].ProbeKey()} + KeysOf(es[1..])
  {
    assert forall e | e in es :: e == es[0] || e in es[1..];
  }

  // ------------------------------------------------------------ one call

  /** startOrUpdateProbe keeps the invariant and always leaves its key stored. */
  lemma StartOrUpdateValid(s: State, e: Entry, hash: Hasher)
    requires Valid(s, hash)
    ensures Valid(StartOrUpdate(s, e, hash), hash)
    ensures e.ProbeKey() in StartOrUpdate(s, e, hash).probes
  {
    var key := e.ProbeKey();
    var s' := StartOrUpdate(s, e, hash);
    if s' != s {
      assert s'.probes == s.probes[key := s.nextHandle];
      assert s'.configs == s.configs[key := hash(e.settings)];
      assert s'.jobs == s.jobs[s.nextHandle := e];
      assert s.nextHandle !in s.jobs;
      forall k | k in s'.probes
        ensures && s'.probes[k] in s'.jobs
                && s'.jobs[s'.probes[k]].ProbeKey() == k
                && s'.configs[k] == hash(s'.jobs[s'.probes[k]].settings)
      {
        if k != key {
          assert s.probes[k] < s.nextHandle;
        }
      }
      forall h | h in s'.jobs && h !in s'.cancelled
        ensures s'.jobs[h].ProbeKey() in s'.probes && s'.probes[s'.jobs[h].ProbeKey()] == h
      {
        if h != s.nextHandle {
          assert h in s.jobs && h !in s.cancelled;
        }
      }
    }
  }

  /** From `s` to `s'` no cancellation is undone, the root context is as it
      was, and a stored key's handle is only ever replaced by a newer one. */
  ghost predicate Grows(s: State, s': State)
  {
    && s.cancelled <= s'.cancelled
    && s'.nextHandle >= s.nextHandle
    && s'.rootCancelled == s.rootCancelled
    && (forall k | k in s.probes :: k in s'.probes && s'.probes[k] >= s.probes[k])
    && (forall k | k in s'.probes && k !in s.probes :: s'.probes[k] >= s.nextHandle)
  }

  lemma StartOrUpdateGrows(s: State, e: Entry, hash: Hasher)
    requires Valid(s, hash)
    ensures Grows(s, StartOrUpdate(s, e, hash))
  {
  }

  lemma GrowsTransitive(a: State, b: State, c: State)
    requires Grows(a, b) && Grows(b, c)
    ensures Grows(a, c)
  {
  }

  lemma {:induction false} StartAllKeepsValid(s: State, es: seq<Entry>, hash: Hasher)
    requires Valid(s, hash)
    ensures Valid(StartAll(s, es, hash), hash)
    decreases |es|
  {
    if |es| > 0 {
      StartOrUpdateValid(s, es[0], hash);
      StartAllKeepsValid(StartOrUpdate(s, es[0], hash), es[1..], hash);
    }
  }

  lemma {:induction false} StartAllGrows(s: State, es: seq<Entry>, hash: Hasher)
    requires Valid(s, hash)
    ensures StartAll(s, es, hash).probes.Keys == s.probes.Keys + KeysOf(es)
    ensures Grows(s, StartAll(s, es, hash))
    decreases |es|
  {
    if |es| > 0 {
      var s1 := StartOrUpdate(s, es[0], hash);
      StartOrUpdateValid(s, es[0], hash);
      StartOrUpdateGrows(s, es[0], hash);
      StartAllGrows(s1, es[1..], hash);
      GrowsTransitive(s, s1, StartAll(s1, es[1..], hash));
      KeysOfCons(es);
    }
  }

  /** The per-kind loops keep the invariant, add exactly the pass's keys, and
      only ever replace a key's handle by a newer one. */
  lemma StartAllValid(s: State, es: seq<Entry>, hash: Hasher)
    requires Valid(s, hash)
    ensures Valid(StartAll(s, es, hash), hash)
    ensures StartAll(s, es, hash).probes.Keys == s.probes.Keys + KeysOf(es)
    ensures Grows(s, StartAll(s, es, hash))
  {
    StartAllKeepsValid(s, es, hash);
    StartAllGrows(s, es, hash);
  }

  /** A key whose every entry carries its stored fingerprint keeps its
      handle, its fingerprint, and the handle's liveness. */
  lemma {:induction false} StartAllKeepsUnchanged(s: State, es: seq<Entry>, hash: Hasher, k: Key)
    requires Valid(s, hash) && k in s.probes && Unchanged(s, es, k, hash)
    ensures var s' := StartAll(s, es, hash);
            && k in s'.probes && s'.probes[k] == s.probes[k]
            && k in s'.configs && s'.configs[k] == s.configs[k]
            && (s.probes[k] !in s.cancelled ==> s.probes[k] !in s'.cancelled)
    decreases |es|
  {
    if |es| > 0 {
      var s1 := StartOrUpdate(s, es[0], hash);
      StartOrUpdateValid(s, es[0], hash);
      assert es[0] in es;
      assert forall e | e in es[1..] :: e in es;
      assert Unchanged(s1, es[1..], k, hash);
      StartAllKeepsUnchanged(s1, es[1..], hash, k);
    }
  }

  /** A stored key some entry of which carries a different fingerprint has
      its old handle cancelled and ends up with a handle issued in this pass. */
  lemma {:induction false} StartAllRestartsChanged(s: State, es: seq<Entry>, hash: Hasher, k: Key)
    requires Valid(s, hash) && k in s.probes && !Unchanged(s, es, k, hash)
    ensures var s' := StartAll(s, es, hash);
            && k in s'.probes && s'.probes[k] >= s.nextHandle
            && s.probes[k] in s'.cancelled
    decreases |es|
  {
    var e :| e in es && e.ProbeKey() == k && hash(e.settings) != s.configs[k];
    var s1 := StartOrUpdate(s, es[0], hash);
    StartOrUpdateValid(s, es[0], hash);
    StartAllValid(s1, es[1..], hash);
    if es[0].ProbeKey() == k && hash(es[0].settings) != s.configs[k] {
      assert s1.probes[k] == s.nextHandle;
    } else {
      assert e in es[1..];
      assert s1.probes[k] == s.probes[k] && s1.configs[k] == s.configs[k];
      assert !Unchanged(s1, es[1..], k, hash);
      StartAllRestartsChanged(s1, es[1..], hash, k);
    }
  }

  /** The fingerprint a pass leaves for one of its keys is that of the key's
      last entry. */
  lemma {:induction false} StartAllLastHash(s: State, es: seq<Entry>, hash: Hasher, k: Key)
    requires Valid(s, hash) && k in KeysOf(es)
    ensures k in StartAll(s, es, hash).configs
    ensures StartAll(s, es, hash).configs[k] == hash(LastFor(es, k).value.settings)
    decreases |es|
  {
    KeysOfCons(es);
    var s1 := StartOrUpdate(s, es[0], hash);
    StartOrUpdateValid(s, es[0], hash);
    if k in KeysOf(es[1..]) {
      StartAllLastHash(s1, es[1..], hash, k);
    } else {
      assert es[0].ProbeKey() == k;
      assert Unchanged(s1, es[1..], k, hash);
      StartAllKeepsUnchanged(s1, es[1..], hash, k);
    }
  }

  /** The stale-key sweep keeps the invariant. */
  lemma SweepValid(s: State, active: set<Key>, hash: Hasher)
    requires Valid(s, hash)
    ensures Valid(Sweep(s, active), hash)
  {
  }

  /** A stored key that stays stored across the sweep keeps its liveness. */
  lemma SweepSparesActive(s: State, active: set<Key>, hash: Hasher, k: Key)
    requires Valid(s, hash) && k in s.probes && k in active && s.probes[k] !in s.cancelled
    ensures s.probes[k] !in Sweep(s, active).cancelled
  {
  }

  // ------------------------------------------------------------ whole passes

  lemma KeysOfConcat(a: seq<Entry>, b: seq<Entry>)
    ensures KeysOf(a + b) == KeysOf(a) + KeysOf(b)
  {
    assert forall e | e in a + b :: e in a || e in b;
  }

  lemma EntriesKeys<C>(sec: Section<C>, wrap: C -> Settings, kind: Kind, name: C -> string)
    requires forall c :: wrap(c).Kind() == kind && wrap(c).Name() == name(c)
    ensures KeysOf(Entries(sec, wrap)) == set c | c in sec.clusters :: Key(kind, name(c))
  {
    var es := Entries(sec, wrap);
    forall c | c in sec.clusters ensures Key(kind, name(c)) in KeysOf(es) {
      var i :| 0 <= i < |sec.clusters| && sec.clusters[i] == c;
      assert es[i].ProbeKey() == Key(kind, name(c));
    }
  }

  lemma DesiredSplit(cfg: Config)
    ensures KeysOf(Desired(cfg))
         == KeysOf(Entries(cfg.tcp, c => TcpSettings(c)))
          + KeysOf(Entries(cfg.s3, c => S3Settings(c)))
          + KeysOf(Entries(cfg.mysql, c => MySqlSettings(c)))
          + KeysOf(Entries(cfg.kafka, c => KafkaSettings(c)))
          + KeysOf(Entries(cfg.redis, c => RedisSettings(c)))
          + KeysOf(Entries(cfg.redisCluster, c => RedisClusterSettings(c)))
          + KeysOf(Entries(cfg.http, c => HttpSettings(c)))
  {
    var tcp := Entries(cfg.tcp, c => TcpSettings(c));
    var s3 := Entries(cfg.s3, c => S3Settings(c));
    var mysql := Entries(cfg.mysql, c => MySqlSettings(c));
    var kafka := Entries(cfg.kafka, c => KafkaSettings(c));
    var redis := Entries(cfg.redis, c => RedisSettings(c));
    var redisCluster := Entries(cfg.redisCluster, c => RedisClusterSettings(c));
    var http := Entries(cfg.http, c => HttpSettings(c));
    KeysOfConcat(tcp, s3);
    KeysOfConcat(tcp + s3, mysql);
    KeysOfConcat(tcp + s3 + mysql, kafka);
    KeysOfConcat(tcp + s3 + mysql + kafka, redis);
    KeysOfConcat(tcp + s3 + mysql + kafka + redis, redisCluster);
    KeysOfConcat(tcp + s3 + mysql + kafka + redis + redisCluster, http);
  }

  lemma TcpKeys(cfg: Config)
    ensures KeysOf(Entries(cfg.tcp, c => TcpSettings(c))) == set c | c in cfg.tcp.clusters :: Key(Tcp, c.name)
  {
    EntriesKeys(cfg.tcp, c => TcpSettings(c), Tcp, (c: TcpTarget) => c.name);
  }

  lemma S3Keys(cfg: Config)
    ensures KeysOf(Entries(cfg.s3, c => S3Settings(c))) == set c | c in cfg.s3.clusters :: Key(S3, c.name)
  {
    EntriesKeys(cfg.s3, c => S3Settings(c), S3, (c: S3Target) => c.name);
  }

  lemma MySqlKeys(cfg: Config)
    ensures KeysOf(Entries(cfg.mysql, c => MySqlSettings(c))) == set c | c in cfg.mysql.clusters :: Key(MySql, c.name)
  {
    EntriesKeys(cfg.mysql, c => MySqlSettings(c), MySql, (c: MySqlTarget) => c.name);
  }

  lemma KafkaKeys(cfg: Config)
    ensures KeysOf(Entries(cfg.kafka, c => KafkaSettings(c))) == set c | c in cfg.kafka.clusters :: Key(Kafka, c.name)
  {
    EntriesKeys(cfg.kafka, c => KafkaSettings(c), Kafka, (c: KafkaTarget) => c.name);
  }

  lemma RedisKeys(cfg: Config)
    ensures KeysOf(Entries(cfg.redis, c => RedisSettings(c))) == set c | c in cfg.redis.clusters :: Key(Redis, c.name)
  {
    EntriesKeys(cfg.redis, c => RedisSettings(c), Redis, (c: RedisTarget) => c.name);
  }

  lemma RedisClusterKeys(cfg: Config)
    ensures KeysOf(Entries(cfg.redisCluster, c => RedisClusterSettings(c))) == set c | c in cfg.redisCluster.clusters :: Key(RedisCluster, c.name)
  {
    EntriesKeys(cfg.redisCluster, c => RedisClusterSettings(c), RedisCluster, (c: RedisClusterTarget) => c.name);
  }

  lemma HttpKeys(cfg: Config)
    ensures KeysOf(Entries(cfg.http, c => HttpSettings(c))) == set c | c in cfg.http.clusters :: Key(Http, c.name)
  {
    EntriesKeys(cfg.http, c => HttpSettings(c), Http, (c: HttpTarget) => c.name);
  }

  /** The keys of a pass are exactly the (kind, name) pairs of the document. */
  lemma DesiredKeys(cfg: Config)
    ensures KeysOf(Desired(cfg)) == ClusterKeys(cfg)
  {
    DesiredSplit(cfg);
    TcpKeys(cfg);
    S3Keys(cfg);
    MySqlKeys(cfg);
    KafkaKeys(cfg);
    RedisKeys(cfg);
    RedisClusterKeys(cfg);
    HttpKeys(cfg);
  }

  /** LaunchOrUpdateProbes keeps the invariant. */
  lemma ReconcileValid(s: State, cfg: Config, hash: Hasher)
    requires Valid(s, hash)
    ensures Valid(LaunchOrUpdateProbes(s, cfg, hash), hash)
  {
    var es := Desired(cfg);
    StartAllValid(s, es, hash);
    SweepValid(StartAll(s, es, hash), KeysOf(es), hash);
  }

  /** After a pass both maps hold exactly the document's keys. */
  lemma ReconcileKeys(s: State, cfg: Config, hash: Hasher)
    requires Valid(s, hash)
    ensures LaunchOrUpdateProbes(s, cfg, hash).probes.Keys == ClusterKeys(cfg)
    ensures LaunchOrUpdateProbes(s, cfg, hash).configs.Keys == ClusterKeys(cfg)
  {
    var es := Desired(cfg);
    var s1 := StartAll(s, es, hash);
    StartAllValid(s, es, hash);
    DesiredKeys(cfg);
    assert s1.probes.Keys == s1.configs.Keys;
  }

  /** After a pass each key's stored fingerprint is that of its last cluster
      record in the document. */
  lemma ReconcileHashes(s: State, cfg: Config, hash: Hasher)
    requires Valid(s, hash)
    ensures var s' := LaunchOrUpdateProbes(s, cfg, hash);
            forall k | k in s'.configs ::
              LastFor(Desired(cfg), k).Some? && s'.configs[k] == hash(LastFor(Desired(cfg), k).value.settings)
  {
    var es := Desired(cfg);
    var s1 := StartAll(s, es, hash);
    var s' := Sweep(s1, KeysOf(es));
    StartAllValid(s, es, hash);
    forall k | k in s'.configs
      ensures LastFor(es, k).Some? && s'.configs[k] == hash(LastFor(es, k).value.settings)
    {
      assert k in KeysOf(es);
      StartAllLastHash(s, es, hash, k);
    }
  }

  /** A listed key whose every record in the document carries the stored
      fingerprint keeps its identical handle and fingerprint, and its loops
      are not cancelled. */
  lemma ReconcileKeepsUnchanged(s: State, cfg: Config, hash: Hasher, k: Key)
    requires Valid(s, hash) && k in s.probes && k in ClusterKeys(cfg)
    requires Unchanged(s, Desired(cfg), k, hash)
    ensures var s' := LaunchOrUpdateProbes(s, cfg, hash);
            && k in s'.probes && s'.probes[k] == s.probes[k]
            && k in s'.configs && s'.configs[k] == s.configs[k]
            && (s.probes[k] !in s.cancelled ==> s.probes[k] !in s'.cancelled)
  {
    var es := Desired(cfg);
    DesiredKeys(cfg);
    StartAllValid(s, es, hash);
    StartAllKeepsUnchanged(s, es, hash, k);
    var s1 := StartAll(s, es, hash);
    if s.probes[k] !in s.cancelled {
      SweepSparesActive(s1, KeysOf(es), hash, k);
    }
  }

  /** A listed key with a changed record has its old handle cancelled and a
      handle never issued before in its place, carrying the new fingerprint;
      the new handle is live unless the manager was stopped. */
  lemma ReconcileRestartsChanged(s: State, cfg: Config, hash: Hasher, k: Key)
    requires Valid(s, hash) && k in s.probes && k in ClusterKeys(cfg)
    requires !Unchanged(s, Desired(cfg), k, hash)
    ensures var s' := LaunchOrUpdateProbes(s, cfg, hash);
            && s.probes[k] in s'.cancelled
            && k in s'.probes && s'.probes[k] !in s.jobs && s'.probes[k] != s.probes[k]
            && k in s'.configs && s'.configs[k] == hash(LastFor(Desired(cfg), k).value.settings)
            && (!s.rootCancelled ==> s'.probes[k] in Live(s'))
  {
    var es := Desired(cfg);
    DesiredKeys(cfg);
    StartAllValid(s, es, hash);
    StartAllRestartsChanged(s, es, hash, k);
    ReconcileValid(s, cfg, hash);
    ReconcileHashes(s, cfg, hash);
  }

  /** A key the manager did not hold gets a handle never issued before and
      the new fingerprint; its loops are live unless the manager was stopped. */
  lemma ReconcileStartsNew(s: State, cfg: Config, hash: Hasher, k: Key)
    requires Valid(s, hash) && k !in s.probes && k in ClusterKeys(cfg)
    ensures var s' := LaunchOrUpdateProbes(s, cfg, hash);
            && k in s'.probes && s'.probes[k] !in s.jobs
            && k in s'.configs && s'.configs[k] == hash(LastFor(Desired(cfg), k).value.settings)
            && (!s.rootCancelled ==> s'.probes[k] in Live(s'))
  {
    var es := Desired(cfg);
    DesiredKeys(cfg);
    StartAllValid(s, es, hash);
    ReconcileValid(s, cfg, hash);
    ReconcileHashes(s, cfg, hash);
  }

  /** A key the document no longer lists is cancelled and deleted from both maps. */
  lemma ReconcileRemovesStale(s: State, cfg: Config, hash: Hasher, k: Key)
    requires Valid(s, hash) && k in s.probes && k !in ClusterKeys(cfg)
    ensures var s' := LaunchOrUpdateProbes(s, cfg, hash);
            && k !in s'.probes && k !in s'.configs
            && s.probes[k] in s'.cancelled && s.probes[k] !in Live(s')
  {
    var es := Desired(cfg);
    DesiredKeys(cfg);
    StartAllValid(s, es, hash);
    StartAllKeepsUnchanged(s, es, hash, k);
  }

  /** Minimal restarts: a pass cancels a live stored handle exactly when its
      key was dropped from the document or one of its records changed. */
  lemma ReconcileMinimalRestarts(s: State, cfg: Config, hash: Hasher, k: Key)
    requires Valid(s, hash) && k in s.probes && s.probes[k] !in s.cancelled
    ensures s.probes[k] in LaunchOrUpdateProbes(s, cfg, hash).cancelled
            <==> (k !in ClusterKeys(cfg) || !Unchanged(s, Desired(cfg), k, hash))
  {
    if k !in ClusterKeys(cfg) {
      ReconcileRemovesStale(s, cfg, hash, k);
    } else if Unchanged(s, Desired(cfg), k, hash) {
      ReconcileKeepsUnchanged(s, cfg, hash, k);
    } else {
      ReconcileRestartsChanged(s, cfg, hash, k);
    }
  }

  /** With every record of a key carrying the fingerprint already stored,
      the per-kind loops change nothing. */
  lemma {:induction false} StartAllAgreeingIsNoop(s: State, es: seq<Entry>, hash: Hasher)
    requires forall e | e in es :: e.ProbeKey() in s.configs && s.configs[e.ProbeKey()] == hash(e.settings)
    ensures StartAll(s, es, hash) == s
    decreases |es|
  {
    if |es| > 0 {
      assert es[0] in es;
      assert StartOrUpdate(s, es[0], hash) == s;
      assert forall e | e in es[1..] :: e in es;
      StartAllAgreeingIsNoop(s, es[1..], hash);
    }
  }

  /** After a pass, a pass whose records carry the stored fingerprints and
      whose keys are the stored keys changes nothing at all. */
  lemma AgreeingPassIsNoop(s: State, es: seq<Entry>, hash: Hasher)
    requires forall e | e in es :: e.ProbeKey() in s.configs && s.configs[e.ProbeKey()] == hash(e.settings)
    requires s.probes.Keys == KeysOf(es)
    ensures Sweep(StartAll(s, es, hash), KeysOf(es)) == s
  {
    StartAllAgreeingIsNoop(s, es, hash);
    var stale := s.probes.Keys - KeysOf(es);
    assert stale == {};
    assert s.probes - stale == s.probes;
    assert s.configs - stale == s.configs;
  }

  /** Idempotence: a second pass over the same document changes neither map,
      issues no handle and cancels nothing, provided the records sharing a
      key share a fingerprint. */
  lemma ReconcileIdempotent(s: State, cfg: Config, hash: Hasher)
    requires Valid(s, hash) && Coherent(Desired(cfg), hash)
    ensures var s1 := LaunchOrUpdateProbes(s, cfg, hash);
            LaunchOrUpdateProbes(s1, cfg, hash) == s1
  {
    var es := Desired(cfg);
    var s1 := LaunchOrUpdateProbes(s, cfg, hash);
    ReconcileKeys(s, cfg, hash);
    ReconcileHashes(s, cfg, hash);
    DesiredKeys(cfg);
    forall e | e in es
      ensures e.ProbeKey() in s1.configs && s1.configs[e.ProbeKey()] == hash(e.settings)
    {
      var k := e.ProbeKey();
      assert k in KeysOf(es);
      var last := LastFor(es, k).value;
      assert hash(last.settings) == hash(e.settings);
    }
    AgreeingPassIsNoop(s1, es, hash);
  }

  /** Distinct cluster names within each kind make the records of a key
      agree, whatever the hash. */
  lemma UniqueNamesCoherent(cfg: Config, hash: Hasher)
    requires UniqueNames(cfg)
    ensures Coherent(Desired(cfg), hash)
  {
    var es := Desired(cfg);
    forall e1, e2 | e1 in es && e2 in es && e1.ProbeKey() == e2.ProbeKey()
      ensures e1.settings == e2.settings
    {
      var i1 :| 0 <= i1 < |es| && es[i1] == e1;
      var i2 :| 0 <= i2 < |es| && es[i2] == e2;
      DesiredIndex(cfg, i1);
      DesiredIndex(cfg, i2);
    }
  }

  /** Entry i of a pass is cluster j of the section its kind names. */
  lemma DesiredIndex(cfg: Config, i: int)
    requires 0 <= i < |Desired(cfg)|
    ensures var e := Desired(cfg)[i];
            match e.settings
            case TcpSettings(c) => exists j | 0 <= j < |cfg.tcp.clusters| :: c == cfg.tcp.clusters[j]
            case S3Settings(c) => exists j | 0 <= j < |cfg.s3.clusters| :: c == cfg.s3.clusters[j]
            case MySqlSettings(c) => exists j | 0 <= j < |cfg.mysql.clusters| :: c == cfg.mysql.clusters[j]
            case KafkaSettings(c) => exists j | 0 <= j < |cfg.kafka.clusters| :: c == cfg.kafka.clusters[j]
            case RedisSettings(c) => exists j | 0 <= j < |cfg.redis.clusters| :: c == cfg.redis.clusters[j]
            case RedisClusterSettings(c) =>
              exists j | 0 <= j < |cfg.redisCluster.clusters| :: c == cfg.redisCluster.clusters[j]
            case HttpSettings(c) => exists j | 0 <= j < |cfg.http.clusters| :: c == cfg.http.clusters[j]
  {
  }
}

=== FILE: prelude.dfy ===
/** Shared vocabulary: an optional value (Go's nil-or-value results) and
    Go's strings.Join. */
module Prelude {

  datatype Option<T> = None | Some(value: T)

  /** strings.Join: the parts in order with `sep` between consecutive parts. */
  function Join(parts: seq<string>, sep: string): string
    decreases |parts|
  {
    if |parts| == 0 then ""
    else if |parts| == 1 then parts[0]
    else parts[0] + sep + Join(parts[1..], sep)
  }
}

=== FILE: ticks.dfy ===
/** What one check loop does on each tick: run the check, classify the
    outcome, fire the matching metric hook, and emit a status message. The
    ticker, the goroutine and the channel are not modelled; a loop's life is
    the sequence of outcomes its checks produced, in tick order. */
module Ticks {
  import opened Prelude
  import opened Launch

  const StatusOk: string := "OK "
  const StatusErr: string := "ERR"

  /** statusMsg: what a loop sends to the manager's logging goroutine. */
  datatype StatusMsg = StatusMsg(targetType: string, cluster: string, host: string,
                                 status: string, err: Option<string>, details: string)

  /** A counter increment performed by a hook. */
  datatype Increment = SuccessInc(labels: Labels) | FailureInc(labels: Labels)

  /** The result of one Probe call (None is a nil error) and the probe's
      MetadataString afterwards. */
  datatype Outcome = Outcome(err: Option<string>, metadata: string)

  /** One tick of launchProbeWithDuration. */
  function Tick(l: LaunchSpec, o: Outcome): (r: (StatusMsg, seq<Increment>))
    ensures r.0.status == StatusErr <==> o.err.Some?
    ensures r.0.status == StatusOk <==> o.err.None?
    ensures && r.0.targetType == l.targetType && r.0.cluster == l.cluster && r.0.host == l.host
            && r.0.err == o.err && r.0.details == o.metadata
    ensures l.hooks.None? ==> r.1 == []
    ensures l.hooks.Some? ==> && |r.1| == 1 && r.1[0].labels == l.hooks.value
                              && (r.1[0].FailureInc? <==> o.err.Some?)
  {
    var status := if o.err.Some? then StatusErr else StatusOk;
    var increments :=
      match l.hooks
      case None => []
      case Some(labels) => if o.err.Some? then [FailureInc(labels)] else [SuccessInc(labels)];
    (StatusMsg(l.targetType, l.cluster, l.host, status, o.err, o.metadata), increments)
  }

  /** The messages and increments of a loop whose checks produced `outcomes`. */
  function Trace(l: LaunchSpec, outcomes: seq<Outcome>): (seq<StatusMsg>, seq<Increment>)
    decreases |outcomes|
  {
    if |outcomes| == 0 then ([], [])
    else
      var (msg, incs) := Tick(l, outcomes[0]);
      var (msgs, rest) := Trace(l, outcomes[1..]);
      ([msg] + msgs, incs + rest)
  }

  function CountOk(outcomes: seq<Outcome>): nat
    decreases |outcomes|
  {
    if |outcomes| == 0 then 0
    else (if outcomes[0].err.None? then 1 else 0) + CountOk(outcomes[1..])
  }

  function CountSuccesses(incs: seq<Increment>): nat
    decreases |incs|
  {
    if |incs| == 0 then 0
    else (if incs[0].SuccessInc? then 1 else 0) + CountSuccesses(incs[1..])
  }

  function CountFailures(incs: seq<Increment>): nat
    decreases |incs|
  {
    if |incs| == 0 then 0
    else (if incs[0].FailureInc? then 1 else 0) + CountFailures(incs[1..])
  }

  lemma {:induction false} CountsOfConcat(a: seq<Increment>, b: seq<Increment>)
    ensures CountSuccesses(a + b) == CountSuccesses(a) + CountSuccesses(b)
    ensures CountFailures(a + b) == CountFailures(a) + CountFailures(b)
    decreases |a|
  {
    if |a| == 0 {
      assert a + b == b;
    } else {
      CountsOfConcat(a[1..], b);
      assert (a + b)[1..] == a[1..] + b;
    }
  }

  lemma CountOkBound(outcomes: seq<Outcome>)
    ensures CountOk(outcomes) <= |outcomes|
  {
  }

  /** One message per check in tick order; with hooks, exactly one counter
      increment per outcome (a success per nil error, a failure per error);
      without hooks, none. */
  lemma {:induction false} TraceMatchesOutcomes(l: LaunchSpec, outcomes: seq<Outcome>)
    ensures |Trace(l, outcomes).0| == |outcomes|
    ensures forall i | 0 <= i < |outcomes| :: Trace(l, outcomes).0[i] == Tick(l, outcomes[i]).0
    ensures CountSuccesses(Trace(l, outcomes).1) == (if l.hooks.Some? then CountOk(outcomes) else 0)
    ensures CountFailures(Trace(l, outcomes).1)
         == (if l.hooks.Some? then |outcomes| - CountOk(outcomes) else 0)
    ensures |Trace(l, outcomes).1| == (if l.hooks.Some? then |outcomes| else 0)
    decreases |outcomes|
  {
    CountOkBound(outcomes);
    if |outcomes| > 0 {
      TraceMatchesOutcomes(l, outcomes[1..]);
      CountOkBound(outcomes[1..]);
      var (msg, incs) := Tick(l, outcomes[0]);
      var (msgs, rest) := Trace(l, outcomes[1..]);
      CountsOfConcat(incs, rest);
      forall i | 1 <= i < |outcomes|
        ensures Trace(l, outcomes).0[i] == Tick(l, outcomes[i]).0
      {
        assert outcomes[i] == outcomes[1..][i - 1];
      }
    }
  }
}
